=== FILE: README.md ===
# Upscale: a Dafny model of the backend handlers and the client controllers

Upscale is an image-enhancement web application. It has two halves:

- a Flask backend (`Backend/app.py`) that registers and logs in users, accepts image uploads, records them, lists a user's history, deletes entries and serves the processed and original files;
- a React client whose controllers drive it: the session holder (`App.jsx`), the login/registration popup (`Login.jsx`), the upload panel (`Upload.jsx`) and the history panel (`History.jsx`).

The model is functional:

- The backend's database is a value, `Store` (users and file rows in insertion order).
- Every route is a pure function from the store, the session cookie and the request fields to a new store and a reply (status code and JSON body).
- Every client controller is a state record plus pure transitions. A transition runs when the user acts, or when a request resolves with one of three outcomes:
  - `Ok`: a 2xx reply with a parsed body;
  - `HttpError`: any other status, with its parsed body;
  - `TransportOrParseFailure`: the `catch` branch.
- Cross-cutting lemmas in `EndToEnd` connect the two halves. They feed a backend reply, as `fetch` presents it, to the controller that issued the request.

Files:

| file | module | contents |
|---|---|---|
| `wrappers.dfy` | `Wrappers` | `Option` |
| `text.dfy` | `Text` | ASCII case mapping, Python `split`/`rsplit`, JavaScript template and `\|\|` semantics |
| `sqlite_like.dfy` | `SqlLike` | SQLite's `LIKE` operator |
| `backend_store.dfy` | `BackendStore` | users, file rows, statuses, the store, replies, `load_user` |
| `accounts.dfy` | `Accounts` | `register`, `login`, `check_auth` |
| `files.dfy` | `Files` | `allowed_file`, `os.path.splitext`, `upload_file`, `get_user_history`, `delete_history_item`, `download_file`, `view_file` |
| `http.dfy` | `Http` | the client's view of a reply; the backend origin |
| `session.dfy` | `Session` | `App.jsx`: the user slot, the `/api/check-auth` probe and `setUser` |
| `login_form.dfy` | `LoginForm` | `Login.jsx`: form state, `handleSubmit`, close reset, mode toggle |
| `upload_job.dfy` | `UploadJob` | `Upload.jsx`: selection, `handleUpload`, the download link |
| `history_view.dfy` | `HistoryView` | `History.jsx`: `fetchHistory`, `handleDelete`, links, footer, panel |
| `end_to_end.dfy` | `EndToEnd` | client and backend together |

Opaque parts of the system are parameters:

- bcrypt is two oracles, `hash` and `checks`.
- `secure_filename` is a function `secure`, and `uuid4()` is the string `uuid`.
- The image processor is the boolean `processed`. A failing `file.save` is the exception text `saveError`.
- The clock is `now`. The Flask-Login session cookie is `session: Option<nat>`, the id of the logged-in user.
- On the client, an object URL is an opaque number, and `window.confirm` is a boolean.

SQLite behaviour the handlers rely on is modelled explicitly:

- A new row gets the next integer id, one more than the largest present.
- `.first()` without `ORDER BY` returns the first row in store order.
- `LIKE` is ASCII case-insensitive, treats `%` and `_` as wildcards and never matches NULL.

Where the code and its design description differ, the model follows the code:

- The client compares statuses exactly (`=== 'completed'`, `=== 'COMPLETED'`, `=== 'FAILED'`), not case-insensitively.
- The upload panel has no guard against stale replies.
- A 401 from the history fetch leaves the list as it was rather than clearing it.
- `@login_required` redirects to the login view (`login_view = 'login'`) instead of answering 401, so an anonymous visitor of the history page sees the load-failure text, not the login prompt (see Findings).
- An ok upload whose status is "failed" is reported as "Success! Image enhancement is FAILED.".

## Model

| member | source | states |
|---|---|---|
| BackendStore.NextUserId | Backend/app.py:66 | a new user's integer primary key is positive and larger than every existing id, so it is fresh |
| BackendStore.NextFileId | Backend/app.py:83 | a new file row's integer primary key is positive and larger than every existing id |
| BackendStore.Valid | Backend/app.py:65-91 | definition: user ids, usernames and emails are unique, and so are file ids (the primary-key and unique columns) |
| BackendStore.FindUserById | Backend/app.py:104 | `db.session.get` returns a user with that id, and nothing only when no user has it |
| BackendStore.LoginRequiredRefusal | Backend/app.py:53 | the login gate answers a redirect to the login view when one is configured, and 401 with a page when none is |
| BackendStore.Unauthorized | Backend/app.py:53 | with the configured login view, the refusal is a 302 to /api/login |
| BackendStore.LoginPathReply | Backend/app.py:333-340 | a GET of /api/login reaches only the catch-all route, which serves the front end's page (404 when it is not built); a DELETE of it is refused with 405 |
| BackendStore.StatusName | Backend/app.py:197-211 | definition: the column texts written for the three statuses are "PENDING", "COMPLETED" and "FAILED" |
| BackendStore.CurrentUser | Backend/app.py:101-104 | the session resolves to the user whose id it holds, and to nobody when no such user exists |
| Accounts.FindUserByEmail | Backend/app.py:144 | the lookup returns a user with that email, and returns nothing exactly when no user has it |
| Accounts.Register | Backend/app.py:116-136 | 400 exactly when a field is absent or empty; otherwise 409 exactly when the username or the email is already taken; otherwise 201, appending a user with a fresh id, the given name and email, and the hash of the password; the store is unchanged on every refusal |
| Accounts.RegisterPreservesValid | Backend/app.py:65-68 | registration keeps user ids, usernames and emails unique (the columns' primary-key and unique constraints) |
| Accounts.Login | Backend/app.py:138-150 | 200 only for a stored user with that email whose hash checks against the password, answering with that user's name and setting the session to their id; otherwise 401 "Invalid email or password" and the session is left as it was |
| Accounts.LoginSucceedsIff | Backend/app.py:144-150 | with unique emails, login succeeds exactly when some user has that email and a matching password |
| Accounts.CheckAuth | Backend/app.py:158-164 | always 200; authenticated with the user's name and id exactly when the session resolves to a user |
| Accounts.LoginThenCheckAuth | Backend/app.py:146-162 | after a successful login, the probe reports that same user as authenticated |
| SqlLike.PercentMatchesAll | Backend/app.py:285-287 | the pattern "%" matches every string |
| SqlLike.LikePrefixPattern | Backend/app.py:285-287 | for a base with no wildcard, `base || '%'` matches exactly the strings that begin with the base up to ASCII case |
| SqlLike.Like | Backend/app.py:285-287 | definition: SQLite's `LIKE`, with `%` for any run, `_` for one character and ASCII case ignored |
| SqlLike.LikeOfLiteralPrefix | Backend/app.py:285-287 | a wildcard-free base that literally begins a stored name matches it under `base || '%'` |
| Text.Lower | Backend/app.py:26 | Python's `lower()` maps each character, position by position, to its lower-case form and keeps the length |
| Text.Upper | Frontend/src/Pages/Upload.jsx:50 | JavaScript's `toUpperCase()` maps each character, position by position, to its upper-case form and keeps the length |
| Text.Interpolate | Frontend/src/Pages/Login.jsx:109 | a template literal shows a present string as itself and a missing field as "undefined" |
| Text.OrElse | Frontend/src/Pages/Login.jsx:100 | `v || fallback` gives the string when it is present and non-empty, and the fallback otherwise |
| Text.BeforeFirst | Backend/app.py:238 | `s.split(c)[0]` is the longest prefix of `s` without `c`, and is followed by `c` or the end of `s` |
| Text.AfterLast | Backend/app.py:26 | `s.rsplit(c, 1)[1]` is the suffix after the last `c` and contains no `c` |
| Text.BeforeFirstOfJoin | Backend/app.py:185-186 | splitting `base + ext` at the first '.' gives back `base` when `base` has no '.' and `ext` is empty or starts with '.' |
| Files.AllowedFile | Backend/app.py:23-26 | definition: a '.' occurs and the text after the last '.' lower-cases to png, jpg or jpeg |
| Files.AllowedFileIff | Backend/app.py:21-26 | a name is allowed exactly when it has a '.' after which comes no further '.' and a suffix that lower-cases to png, jpg or jpeg |
| Files.LastDotIsUnique | Backend/app.py:26 | a '.' with no '.' after it is the one `rsplit` splits at |
| Files.AllowedUpperPng | Backend/app.py:23-26 | "a.PNG" is allowed: the extension comparison ignores case |
| Files.AllowedDotPng | Backend/app.py:23-26 | ".png" is allowed: an empty stem is not checked |
| Files.RejectedNoDot | Backend/app.py:23-26 | "png" is refused: a '.' is required |
| Files.RejectedDoubleExtension | Backend/app.py:23-26 | "a.png.exe" is refused: only the last extension counts |
| Files.SplitExt | Backend/app.py:184 | the extension `os.path.splitext` returns is a suffix of the name, and is either empty or one '.' followed by text without '.' or '/' |
| Files.SplitExtOfImageName | Backend/app.py:184 | "photo.png" gives ".png" |
| Files.SplitExtOfDotfile | Backend/app.py:184 | ".bashrc" gives "": a leading dot is not an extension |
| Files.StoredName | Backend/app.py:185-186 | definition: the stored name is the uuid followed by the secured name's extension |
| Files.PendingRecord | Backend/app.py:194-201 | the row committed before processing is PENDING, owned by the uploader, keeps the client's filename and the stored name, and has an id no existing row has |
| Files.Settle | Backend/app.py:204-213 | the processor's verdict moves the row to COMPLETED exactly on success and to FAILED exactly on failure |
| Files.UploadRejection | Backend/app.py:171-180 | "No file part" exactly when the part is missing, "No selected file" exactly when its name is empty, "File type not allowed" exactly when the name is non-empty and not allowed, and no refusal otherwise |
| Files.Upload | Backend/app.py:168-224 | a redirect to the login view exactly without a user, 400 exactly on a refusal, with its message; 500 only when the save fails; the store is unchanged unless 201; on 201 exactly one row is appended, owned by the uploader, with the client's filename, stored as uuid plus extension, with a fresh id and a final status matching the processor's verdict; the reply carries the uuid base and the lower-cased status |
| Files.UploadReportsStatus | Backend/app.py:215-219 | a 201 reply's status is "completed" or "failed" according to the processor's verdict |
| Files.LowerStatusNames | Backend/app.py:218 | the lower-cased column texts of COMPLETED and FAILED are "completed" and "failed" |
| Files.UploadPreservesValid | Backend/app.py:194-201 | uploading keeps file ids unique |
| Files.UploadThenHistoryRoundTrip | Backend/app.py:185-238 | after a 201 upload, the uploader's history lists the new row with `unique_id` equal to the `filename` the upload answered |
| Files.Owned | Backend/app.py:231 | `filter_by(user_id=...)` keeps exactly the rows owned by that user, each as often as it occurs |
| Files.ConsNewestFirst | Backend/app.py:232 | a row at least as new as every other row, placed first, keeps a newest-first list newest first |
| Files.InsertByTime | Backend/app.py:232 | insertion adds exactly the one row to the list's multiset |
| Files.TailNewestFirst | Backend/app.py:232 | the tail of a newest-first list is newest first |
| Files.InsertKeepsNewestFirst | Backend/app.py:232 | insertion into a newest-first list keeps it newest first |
| Files.SortNewestFirst | Backend/app.py:232 | `ORDER BY uploaded_at DESC` yields a permutation of the rows with non-increasing timestamps |
| Files.UniqueId | Backend/app.py:238 | `unique_id` is null exactly for a null or empty stored name; otherwise it is the part of the stored name before its first '.', or all of it when there is none |
| Files.Entry | Backend/app.py:235-241 | a history entry carries the row's id, original filename, upper-case status text, timestamp and `unique_id` |
| Files.Entries | Backend/app.py:235-241 | the list comprehension maps each row, position by position, to its entry |
| Files.EntriesNewestFirst | Backend/app.py:232-241 | entries built from newest-first rows have non-increasing dates |
| Files.EntriesMembership | Backend/app.py:235-241 | every row's entry is listed, and every listed entry is some row's entry |
| Files.HistoryRows | Backend/app.py:231-233 | the rows listed are exactly the user's rows, newest first, each as often as in the store |
| Files.History | Backend/app.py:226-246 | a redirect to the login view exactly without a user; otherwise 200 with dates non-increasing, every row the user owns listed, nothing listed that is not one of the user's rows, and one entry per owned row |
| Files.FindOwned | Backend/app.py:255 | the lookup returns a position holding that id and owner, and returns nothing exactly when no row has both |
| Files.Delete | Backend/app.py:249-279 | a redirect to the login view exactly without a user; 404 exactly when the user owns no row with that id; the store is unchanged unless 200; on 200 exactly one matching row is removed and the order of the rest is kept; other users' rows always stay |
| Files.RemoveAtUnique | Backend/app.py:272-273 | removing one row keeps ids unique and leaves no row with the removed id |
| Files.DeletePreservesValid | Backend/app.py:255-275 | deleting keeps ids unique, and after a 200 no row with the deleted id remains |
| Files.FirstIndex | Backend/app.py:285-287 | `.first()` returns the earliest row, in store order, that satisfies the filter, and returns nothing exactly when no row does |
| Files.FindFirstOfAppended | Backend/app.py:285-287 | a new last row that matches, after rows none of which does, is the row `.first()` returns |
| Files.FindFirst | Backend/app.py:285-287 | `.first()` returns a stored row that satisfies the filter, and returns nothing exactly when no row does |
| Files.FindByLike | Backend/app.py:285-287 | the lookup as written returns a row whose stored name is `LIKE base%`, and returns nothing exactly when no row matches |
| Files.FindByPrefix | Backend/app.py:285-287 | the corrected lookup returns a row whose stored name literally begins with the base, and returns nothing exactly when no row does |
| Files.LikeLookupMatchesWildcard | Backend/app.py:285-287 | the base "%" selects a row stored as "0b5d.png" although that name does not begin with "%" |
| Files.LikeLookupIgnoresCase | Backend/app.py:285-287 | the base "0B5D" selects the row stored as "0b5d.png" |
| Files.LookupsAgreeOnPlainIds | Backend/app.py:285-287 | for wildcard-free lower-case bases over lower-case stored names, which is what the application generates, both lookups return the same row |
| Files.ServeDownload | Backend/app.py:289-303 | 404 exactly when nothing was found; 409 "File is still <status>." exactly when the row is not COMPLETED; otherwise the stored file as an attachment named "upscaled_" + original filename |
| Files.ServeView | Backend/app.py:318-326 | 404 exactly when nothing was found; otherwise the stored original inline, whatever its status |
| Files.DownloadAsWritten | Backend/app.py:281-306 | the download route as written: 404 exactly when no stored name is `LIKE base%`; 409 only for a matching row that is not COMPLETED, with its lower-cased status; 200 only for a matching COMPLETED row, as "upscaled_" + original name |
| Files.ViewAsWritten | Backend/app.py:308-329 | the preview route as written: 404 exactly when no stored name is `LIKE base%`; otherwise a matching row's original, inline, whatever its status |
| Files.ViewAsWrittenServesAnyone | Backend/app.py:308-319 | without a login, `/api/view/%` serves the original of whatever row comes first, while the corrected route, which reads "%" literally, answers 404 |
| Files.PrefixLookupAcceptsShortBase | Backend/app.py:285-287 | the corrected lookup still accepts any prefix of a stored name: "0" selects the row stored as "0b5d.png" |
| Files.Download | Backend/app.py:281-306 | with the corrected lookup: 404 exactly when no stored name begins with the base; 409 only for a matching row that is not COMPLETED, with its lower-cased status; 200 only for a matching COMPLETED row, as "upscaled_" + original name |
| Files.View | Backend/app.py:308-329 | with the corrected lookup: 404 exactly when no stored name begins with the base; otherwise a matching row's original, inline |
| Session.Initial | Frontend/src/App.jsx:11 | the session starts with no user |
| Session.ApplyProbe | Frontend/src/App.jsx:14-29 | a probe reply that parses with `authenticated` true stores that reply as the user; every other outcome leaves the session unchanged |
| Session.ApplyLogin | Frontend/src/App.jsx:43 | the popup's `setUser` replaces the user with the logged-in name |
| Session.NeverLoggedOut | Frontend/src/App.jsx:11-43 | once a user is set, no probe or login outcome clears it |
| Session.UserSetIff | Frontend/src/App.jsx:14-43 | after any sequence of events a user is set exactly when one was set before or some event was an authenticated probe or a successful login |
| Session.InitialUserSetIff | Frontend/src/App.jsx:11-29 | from the initial state, a user is set exactly when some event set one |
| Session.LoginOverridesProbe | Frontend/src/App.jsx:43 | whatever happened before, a login makes the user that login's name |
| LoginForm.Initial | Frontend/src/Pages/Login.jsx:6-16 | the popup starts in login mode with empty email, username and password, no message and no request in flight; the button is enabled but the browser's required-field check blocks the submit |
| LoginForm.SubmitEnabled | Frontend/src/Pages/Login.jsx:364 | definition: the submit button is enabled exactly when no request is in flight |
| LoginForm.RequiredFieldsFilled | Frontend/src/Pages/Login.jsx:245-319 | definition: the browser submits only with email and password filled, and the username too when registering |
| LoginForm.Submit | Frontend/src/Pages/Login.jsx:68-84 | submitting marks the form busy with "Processing...", and posts to /api/register with email, username and password in register mode, or to /api/login with email and password otherwise |
| LoginForm.Resolve | Frontend/src/Pages/Login.jsx:86-116 | the busy flag is always cleared; a login success sets the user to the returned name (or "User") and schedules the close; a registration success switches to login mode, empties only the password and prompts to log in; an error status shows "Error: " and the message; a failure shows the network message; the branch taken depends on the mode captured at submit |
| LoginForm.Close | Frontend/src/Pages/Login.jsx:19-31 | closing clears the message, returns to login mode and empties all three fields |
| LoginForm.Toggle | Frontend/src/Pages/Login.jsx:402-407 | the toggle flips the mode, clears the message and keeps the fields |
| LoginForm.CloseIdempotent | Frontend/src/Pages/Login.jsx:19-31 | closing twice equals closing once, and a closed form is the initial form apart from the in-flight flag, which closing leaves alone |
| LoginForm.ToggleTwice | Frontend/src/Pages/Login.jsx:402-407 | toggling twice restores the mode |
| LoginForm.SubmitResolveCycle | Frontend/src/Pages/Login.jsx:68-117 | after a request resolves, the submit button is enabled again, and a non-ok outcome keeps the mode and sets no user |
| LoginForm.RegistrationNeedsPasswordAgain | Frontend/src/Pages/Login.jsx:91-95 | after registering, the popup is in login mode with an empty password, so the required inputs block the next submit |
| UploadJob.Initial | Frontend/src/Pages/Upload.jsx:6-12 | the panel starts with no file, no preview, no upload in flight, no download id and "Ready for Enhancement", so the enhance button is disabled and no download link is shown |
| UploadJob.EnhanceEnabled | Frontend/src/Pages/Upload.jsx:151 | definition: the enhance button is enabled exactly when a file is selected and no upload is in flight |
| UploadJob.LinkShown | Frontend/src/Pages/Upload.jsx:168 | definition: the download link is shown exactly when the download id is non-empty |
| UploadJob.SelectFiles | Frontend/src/Pages/Upload.jsx:14-22 | choosing no file changes nothing; choosing files selects the first, shows its preview and name, and clears the download id |
| UploadJob.DownloadUrl | Frontend/src/Pages/Upload.jsx:72-75 | the link is the download route's base followed by exactly the id |
| UploadJob.DownloadUrlInjective | Frontend/src/Pages/Upload.jsx:72-75 | distinct ids give distinct links |
| UploadJob.Submit | Frontend/src/Pages/Upload.jsx:24-36 | with no file, only the prompt is set and nothing is sent; otherwise the job is marked uploading, the download id cleared and the selected file sent |
| UploadJob.Resolve | Frontend/src/Pages/Upload.jsx:38-69 | uploading always ends; an ok reply with a status reports it upper-cased, clears the selection and takes the filename as download id exactly when the status is "completed"; an error status shows the message or the fallback and clears the id; a failure, including an ok reply without a status, shows the network message and keeps the selection |
| UploadJob.DownloadIdIffCompleted | Frontend/src/Pages/Upload.jsx:30-55 | after an upload, a download id is held exactly when the reply was ok with status exactly "completed" and a filename, and it is that filename |
| UploadJob.SelectionKeptForRetry | Frontend/src/Pages/Upload.jsx:30-68 | the button is disabled while the upload is in flight; an ok reply clears the selection, and any other outcome keeps it with the button enabled again |
| UploadJob.SubmitWithoutFileIsLocal | Frontend/src/Pages/Upload.jsx:25-28 | enhancing with nothing selected sends nothing and changes only the message |
| UploadJob.SelectTwice | Frontend/src/Pages/Upload.jsx:14-22 | a second selection fully replaces the first |
| UploadJob.LateReplyDropsNewSelection | Frontend/src/Pages/Upload.jsx:14-56 | a file chosen while an upload is in flight is dropped when that upload's ok reply arrives, while its preview stays |
| UploadJob.CompletedLinkTarget | Frontend/src/Pages/Upload.jsx:168-171 | after a completed upload the link is shown and points at /api/download/ followed by the returned filename |
| HistoryView.Initial | Frontend/src/Pages/History.jsx:6-8 | the panel starts loading with an empty list and no error |
| HistoryView.ApplyFetch | Frontend/src/Pages/History.jsx:14-36 | loading always ends; an ok reply replaces the list; a 401 shows the login prompt; any other failure shows the load-failure text; on failure the list is kept |
| HistoryView.FirstLoadUnauthorized | Frontend/src/Pages/History.jsx:20-24 | a 401 on first load shows the login prompt, not the generic error, over an empty list |
| HistoryView.RemoveId | Frontend/src/Pages/History.jsx:52 | `filter(item => item.id !== id)` keeps exactly the items with a different id |
| HistoryView.RemoveIdOfConcat | Frontend/src/Pages/History.jsx:52 | the filter distributes over concatenation |
| HistoryView.RemoveAbsentId | Frontend/src/Pages/History.jsx:52 | filtering out an absent id changes nothing |
| HistoryView.RemovePresentId | Frontend/src/Pages/History.jsx:52 | with unique ids, filtering out the id at position k removes exactly that item and keeps the order |
| HistoryView.DeleteRequest | Frontend/src/Pages/History.jsx:39-48 | a DELETE for the id is sent exactly when the user confirms |
| HistoryView.ApplyDelete | Frontend/src/Pages/History.jsx:44-59 | an ok reply removes exactly the items with that id without alerting; an error status alerts "Failed to delete the file."; a failure alerts "Error occurred while deleting."; a non-ok outcome changes nothing else |
| HistoryView.DeleteOneItem | Frontend/src/Pages/History.jsx:50-55 | with unique ids, a confirmed delete with an ok reply shortens the list by exactly that item; otherwise the list is unchanged |
| HistoryView.RenderId | Frontend/src/Pages/History.jsx:62-68 | a null `unique_id` renders as the text "null" |
| HistoryView.DownloadLink | Frontend/src/Pages/History.jsx:62-64 | the download link is the route's base followed by the rendered id |
| HistoryView.PreviewLink | Frontend/src/Pages/History.jsx:66-68 | the preview link is the view route's base followed by the rendered id |
| HistoryView.FooterFor | Frontend/src/Pages/History.jsx:116-126 | a card offers the download link exactly for status "COMPLETED", shows "Failed" exactly for "FAILED", and shows "Processing..." otherwise |
| HistoryView.FooterIsCaseSensitive | Frontend/src/Pages/History.jsx:116-125 | lower-case "completed" or "failed" shows "Processing..." |
| HistoryView.PanelFor | Frontend/src/Pages/History.jsx:75-87 | the grid is shown exactly when loaded with no error and a non-empty list; the empty text exactly when loaded with no error and an empty list; never both |
| HistoryView.ErrorHidesGrid | Frontend/src/Pages/History.jsx:77-87 | once an error is shown, even a later successful fetch does not show the grid, because nothing clears the error |
| Http.IsOkStatus | Frontend/src/Pages/History.jsx:26 | definition: `response.ok` holds exactly for a status from 200 to 299 |
| Http.RedirectMethod | Frontend/src/Pages/Upload.jsx:40-44 | a redirected POST is re-sent as a GET, and every other method is kept |
| EndToEnd.Delivered | Frontend/src/Pages/History.jsx:16-18 | `fetch` follows the login gate's redirect: a GET or a redirected POST gets the front end's page, ok exactly when it is built; a DELETE gets 405; every other reply arrives unchanged |
| EndToEnd.UploadResponse | Frontend/src/Pages/Upload.jsx:40-48 | a page, which is not JSON, reaches the client as a failure; other replies are ok exactly for 2xx codes, and an upload result's fields arrive unchanged |
| EndToEnd.ToItem | Frontend/src/Pages/History.jsx:28-29 | a parsed history entry keeps the backend entry's id, `unique_id` and status |
| EndToEnd.ToItems | Frontend/src/Pages/History.jsx:28-29 | the parsed list has the backend entries' ids, `unique_id`s and statuses in order |
| EndToEnd.HistoryResponse | Frontend/src/Pages/History.jsx:16-29 | a non-2xx status, 401 included, reaches the client as that error before parsing; a 2xx list arrives as the parsed items; a 2xx non-JSON body (the front end's page) fails to parse |
| EndToEnd.DeleteResponse | Frontend/src/Pages/History.jsx:45-55 | a delete reply is ok exactly for a 2xx status, and is never a parse failure since the body is not read |
| EndToEnd.AuthResponse | Frontend/src/Pages/Login.jsx:79-88 | a non-JSON body fails to parse, and nothing else does; a login success arrives as ok with message and username; a refusal arrives as an error with its message |
| EndToEnd.LoginThroughPopup | Frontend/src/Pages/Login.jsx:86-109 | when the backend accepts the credentials, the popup sets the user to the stored username (or "User") and schedules its close; when it refuses, the popup shows "Error: Invalid email or password" and sets no user |
| EndToEnd.RegisterFormPassesFieldCheck | Backend/app.py:124-125 | a registration the browser lets through never gets the "Missing required fields" refusal |
| EndToEnd.FreshUuidFindsNewRow | Backend/app.py:285-287 | a wildcard-free uuid that no earlier row matches selects the row just uploaded, under the `LIKE` lookup and the literal one alike |
| EndToEnd.UploadedRowIsDownloadable | Backend/app.py:185-302 | a logged-in upload of an allowed file under a fresh uuid is answered 201 with that uuid and the processor's verdict, and the download route, as written and corrected, then serves the new row after a success or answers 409 after a failure |
| EndToEnd.ClientTakesUploadResult | Frontend/src/Pages/Upload.jsx:48-56 | a 201 upload result clears the selection and ends the upload; the filename becomes the download id, with the link shown, exactly when the status is "completed" |
| EndToEnd.UploadThenDownload | Backend/app.py:185-302 | a logged-in upload of an allowed file is answered 201; the client then holds a download id exactly when processing succeeded, that id is the uuid, and the download route as written serves the file for it, or answers 409 after a failure |
| EndToEnd.EntryFooter | Frontend/src/Pages/History.jsx:116-125 | a card built from a row offers the download exactly for COMPLETED rows and shows "Failed" exactly for FAILED rows |
| EndToEnd.HistoryFetchShowsServerStatus | Frontend/src/Pages/History.jsx:14-36 | an anonymous visitor, redirected to the login view, sees the load-failure text over an empty list; a logged-in user sees one card per owned row, and every card's footer matches its row's status |
| EndToEnd.DeletedItemStaysGone | Frontend/src/Pages/History.jsx:50-52 | deleting one's own row answers 200, the card disappears, and a new fetch does not bring it back |
| EndToEnd.LoginPromptUnreachable | Frontend/src/Pages/History.jsx:20-24 | whatever the store and session, the first history fetch never ends with the login prompt |
| EndToEnd.PromptWithoutLoginView | Frontend/src/Pages/History.jsx:20-24 | the anonymous refusal is the login gate with the configured view; with no view configured it would be a 401 and the page would show the login prompt over an empty list |
| EndToEnd.AnonymousUploadReportsNetworkFailure | Frontend/src/Pages/Upload.jsx:38-68 | an anonymous upload leaves the store unchanged; the client reports the network failure and keeps the selected file |
| EndToEnd.AnonymousDeleteAlerts | Frontend/src/Pages/History.jsx:44-55 | an anonymous delete leaves the store unchanged; the redirected DELETE gets 405, so the client alerts "Failed to delete the file." and keeps its list |

## Findings

| source | as written | input that shows it | evidently intended | confidence | as-written member | corrected member |
|---|---|---|---|---|---|---|
| Backend/app.py:285-287 | the row for `/api/download/<base>` and `/api/view/<base>` is found with `processed_filename LIKE '<base>%'`, and SQLite's `LIKE` treats `%` and `_` in the base as wildcards | `GET /api/view/%` (sent as `%25`) without a login, over a store holding another user's row "0b5d.png" | read the requested base literally: select only a row whose stored name begins with exactly that text | high; not executed | Files.FindByLike, shown by Files.LikeLookupMatchesWildcard and Files.ViewAsWrittenServesAnyone | Files.FindByPrefix, used by Files.View and Files.Download |
| Backend/app.py:314-316 | the same `LIKE` lookup is case-insensitive for ASCII letters in SQLite | `GET /api/view/0B5D` selects the row stored as "0b5d.png" | an exact prefix match on the generated lower-case uuid | medium; not executed | Files.FindByLike, shown by Files.LikeLookupIgnoresCase | Files.FindByPrefix; Files.LookupsAgreeOnPlainIds shows both lookups agree on the ids the application generates |
| Frontend/src/Pages/History.jsx:20-24 | the history page shows "Please log in to view your history." only on a 401, but `login_view = 'login'` (Backend/app.py:53) makes `@login_required` answer a redirect; `fetch` follows it to /api/login, where the catch-all route serves the front end's page or a 404 | an anonymous visitor opens the history page | the anonymous history fetch is refused with 401 (no login view for the API, or an unauthorized handler), so the login prompt is shown | medium; not executed | EndToEnd.LoginPromptUnreachable, over BackendStore.Unauthorized | EndToEnd.PromptWithoutLoginView, over BackendStore.LoginRequiredRefusal without a login view |

## Left out

- Flask-Login's `@login_required` refusal is modelled as a redirect to `/api/login`. The `next` query parameter it adds is not modelled. The model assumes the browser's CORS check admits the redirect and the page it leads to.
- Session.NeverLoggedOut: covers the probe and the login popup only. `App.jsx` also hands `setUser` to the navigation bar (Frontend/src/App.jsx:34), whose source is not part of this model, so a logout there is not excluded.
- bcrypt is the oracle pair `hash`/`checks`. A missing password at login is passed to `checks`, whereas bcrypt would raise and the route would answer 500.
- Accounts.Register: the 201 branch states that a user is appended with the oracle's hash. It says nothing about the `String(80)`/`String(120)` column widths, which SQLite does not enforce.
- `secure_filename`, `uuid4` and the image processor (`Backend/processor.py`) are opaque inputs. The freshness and shape of the uuid are hypotheses of the lemmas that need them.
- `os.path.splitext` is modelled for POSIX paths only (the Windows variant also splits at '\\').
- File-system effects are not modelled: saving, the `os.remove` calls of delete, and `send_from_directory`. The replies name the file served.
- Exceptions other than a failing save are not modelled. That leaves out the 500 replies of history, delete, download and view, and a failure after the PENDING row is committed. The PENDING status is therefore not visible in any final store the model produces.
- Files.FindByPrefix: corrects only how `%`, `_` and letter case are read. Like the original, it accepts any prefix of a stored name (Files.PrefixLookupAcceptsShortBase), so a short guess such as "0" still reaches another user's file without a login. Matching the whole `unique_id` would close that, but the source gives no sign of which of the two it meant.
- `MAX_CONTENT_LENGTH` (the 413 for an oversized upload) is not modelled.
- Files.Entry: `date` is the raw timestamp, not the `strftime('%Y-%m-%d %H:%M')` text. The ordering the model proves is by timestamp.
- Files.SortNewestFirst: SQL leaves the order of equal timestamps open. The model keeps store order for ties, and History promises only the order and the membership that SQL guarantees.
- Request bodies that are not JSON objects, and JSON values that are not strings, are not modelled. Every field is an optional string.
- The logout route and `get_data` are not part of the modelled core. The static front-end route is modelled only as the reply to a redirected request for `/api/login`.
- Text.Lower: Python's `lower()` is modelled for ASCII letters only. No non-ASCII character lower-cases to a letter of "png", "jpg" or "jpeg", so `allowed_file` decides the same way. The statuses it lower-cases are ASCII.
- UploadJob.Resolve: JavaScript's `toUpperCase` is modelled for ASCII letters only. The backend only sends "completed" and "failed".
- Client timers, animations, mouse tracking, scroll locking and the Escape key are not modelled. The one-second close after a login is the flag `closeScheduled`.
- The input `onChange` setters are plain field updates. The model builds `Form` values directly.
- The browser's `type="email"` format check is not modelled. Only the `required` attributes are (`RequiredFieldsFilled`).
- `if (setUser)` in the popup is taken as true, since `App.jsx` passes the setter.
- Object URLs are opaque numbers and are never revoked (the source does not revoke them either). `console.error` output is not modelled.
- Session: the order in which the mount-time probe and a login resolve is left free. `Run` accepts any sequence of events.

=== FILE: accounts.dfy ===
/**
 * The authentication handlers of Backend/app.py: `register`, `login` and
 * `check_auth`. bcrypt is abstracted as a `hash` function and a `checks`
 * predicate over a stored hash and a candidate password; the session
 * cookie is the optional user id `session`.
 */
module Accounts {
  import opened Wrappers
  import opened BackendStore

  /** Python's `not v` for an optional JSON string: absent or empty. */
  predicate Missing(v: Option<string>)
  {
    v.None? || v.value == ""
  }

  predicate UsernameTaken(users: seq<User>, name: string)
  {
    exists u :: u in users && u.username == name
  }

  predicate EmailTaken(users: seq<User>, email: string)
  {
    exists u :: u in users && u.email == email
  }

  /** `User.query.filter_by(email=email).first()`. */
  function FindUserByEmail(users: seq<User>, email: string): (r: Option<User>)
    ensures r.Some? ==> r.value in users && r.value.email == email
    ensures r.None? <==> !EmailTaken(users, email)
  {
    if |users| == 0 then None
    else if users[0].email == email then Some(users[0])
    else
      assert forall u :: u in users ==> u == users[0] || u in users[1..];
      FindUserByEmail(users[1..], email)
  }

  /**
   * POST /api/register. Missing fields give 400, an existing username or
   * email gives 409, and only otherwise is a user row added (201).
   */
  function Register(
    st: Store,
    username: Option<string>,
    email: Option<string>,
    password: Option<string>,
    hash: string -> string): (r: Outcome)
    ensures r.reply.code == 400 <==> Missing(username) || Missing(email) || Missing(password)
    ensures r.reply.code == 409 <==>
      && !(Missing(username) || Missing(email) || Missing(password))
      && (UsernameTaken(st.users, username.value) || EmailTaken(st.users, email.value))
    ensures r.reply.code in {400, 409, 201}
    ensures r.reply.code == 400 ==> r.reply.body == Message("Missing required fields")
    ensures r.reply.code == 409 ==> r.reply.body == Message("User already exists")
    ensures r.reply.code != 201 ==> r.store == st
    ensures r.reply.code == 201 ==>
      && r.reply.body == Message("User registered successfully")
      && r.store.files == st.files
      && |r.store.users| == |st.users| + 1
      && r.store.users[..|st.users|] == st.users
      && var u := r.store.users[|st.users|];
         u.username == username.value && u.email == email.value
         && u.passwordHash == hash(password.value)
         && forall v :: v in st.users ==> v.id != u.id
  {
    if Missing(username) || Missing(email) || Missing(password) then
      Outcome(st, Reply(400, Message("Missing required fields")))
    else if UsernameTaken(st.users, username.value) || EmailTaken(st.users, email.value) then
      Outcome(st, Reply(409, Message("User already exists")))
    else
      var u := User(NextUserId(st.users), username.value, email.value, hash(password.value));
      Outcome(st.(users := st.users + [u]), Reply(201, Message("User registered successfully")))
  }

  /** Registration keeps user ids, usernames and emails unique. */
  lemma RegisterPreservesValid(
    st: Store,
    username: Option<string>,
    email: Option<string>,
    password: Option<string>,
    hash: string -> string)
    requires Valid(st)
    ensures Valid(Register(st, username, email, password, hash).store)
  {
    var r := Register(st, username, email, password, hash);
    if r.reply.code == 201 {
      var users := r.store.users;
      var n := |st.users|;
      forall i, j | 0 <= i < j < |users|
        ensures users[i].id != users[j].id
        ensures users[i].username != users[j].username
        ensures users[i].email != users[j].email
      {
        if j == n {
          assert users[i] in st.users by { assert users[i] == st.users[i]; }
        } else {
          assert users[i] == st.users[i] && users[j] == st.users[j];
        }
      }
    }
  }

  /** What `/api/login` decides, plus the session it leaves behind. */
  datatype LoginResult = LoginResult(reply: Reply, session: Option<nat>)

  /**
   * POST /api/login. A user with the given email whose hash checks against
   * the password is logged in (200 with the stored username); an unknown
   * email and a wrong password give the same 401.
   */
  function Login(
    st: Store,
    session: Option<nat>,
    email: Option<string>,
    password: Option<string>,
    checks: (string, Option<string>) -> bool): (r: LoginResult)
    ensures r.reply.code in {200, 401}
    ensures r.reply.code == 401 ==>
      r.reply.body == Message("Invalid email or password") && r.session == session
    ensures r.reply.code == 200 ==>
      exists u :: u in st.users && Some(u.email) == email && checks(u.passwordHash, password)
        && r.reply.body == LoginOk("Login successful", u.username) && r.session == Some(u.id)
    ensures email.Some? && !EmailTaken(st.users, email.value) ==> r.reply.code == 401
  {
    var found := if email.Some? then FindUserByEmail(st.users, email.value) else None;
    if found.Some? && checks(found.value.passwordHash, password) then
      LoginResult(Reply(200, LoginOk("Login successful", found.value.username)), Some(found.value.id))
    else
      LoginResult(Reply(401, Message("Invalid email or password")), session)
  }

  /**
   * With unique emails (which registration maintains), login succeeds
   * exactly when some user has that email and a matching password.
   */
  lemma LoginSucceedsIff(
    st: Store,
    session: Option<nat>,
    email: string,
    password: Option<string>,
    checks: (string, Option<string>) -> bool)
    requires Valid(st)
    ensures Login(st, session, Some(email), password, checks).reply.code == 200 <==>
      exists u :: u in st.users && u.email == email && checks(u.passwordHash, password)
  {
    var found := FindUserByEmail(st.users, email);
    if u :| u in st.users && u.email == email && checks(u.passwordHash, password) {
      assert found.Some?;
      var i :| 0 <= i < |st.users| && st.users[i] == u;
      var j :| 0 <= j < |st.users| && st.users[j] == found.value;
      assert i == j;
    }
  }

  /**
   * GET /api/check-auth: always 200; authenticated with the username and
   * id of the session's user, or `{"authenticated": false}`.
   */
  function CheckAuth(st: Store, session: Option<nat>): (r: Reply)
    ensures r.code == 200
    ensures r.body.Authenticated? <==> CurrentUser(st, session).Some?
    ensures r.body.Authenticated? ==>
      exists u :: u in st.users && Some(u.id) == session && r.body == Authenticated(u.username, u.id)
    ensures !r.body.Authenticated? ==> r.body == NotAuthenticated
  {
    match CurrentUser(st, session)
    case Some(u) => Reply(200, Authenticated(u.username, u.id))
    case None => Reply(200, NotAuthenticated)
  }

  /** A session created by a successful login is one `check_auth` accepts. */
  lemma LoginThenCheckAuth(
    st: Store,
    session: Option<nat>,
    email: Option<string>,
    password: Option<string>,
    checks: (string, Option<string>) -> bool)
    requires Valid(st)
    requires Login(st, session, email, password, checks).reply.code == 200
    ensures
      var r := Login(st, session, email, password, checks);
      CheckAuth(st, r.session).body == Authenticated(r.reply.body.username, r.session.value)
  {
    var r := Login(st, session, email, password, checks);
    var u :| u in st.users && Some(u.email) == email && checks(u.passwordHash, password)
      && r.reply.body == LoginOk("Login successful", u.username) && r.session == Some(u.id);
    var c := CurrentUser(st, r.session);
    assert c.Some?;
    var i :| 0 <= i < |st.users| && st.users[i] == u;
    var j :| 0 <= j < |st.users| && st.users[j] == c.value;
    assert i == j;
  }
}

=== FILE: backend_store.dfy ===
/**
 * The backend's database (Backend/app.py, models `User` and `FileHistory`)
 * as an immutable value, together with the session lookup and the JSON
 * replies the request handlers produce.
 *
 * Rows are kept in a sequence in rowid order; a query's `.first()` without
 * an ORDER BY is read as "first in rowid order".
 */
module BackendStore {
  import opened Wrappers
  import opened Http

  /** The three values the handlers ever write into `FileHistory.status`. */
  datatype Status = Pending | Completed | Failed

  /** The column text stored for a status. */
  function StatusName(s: Status): string
  {
    match s
    case Pending => "PENDING"
    case Completed => "COMPLETED"
    case Failed => "FAILED"
  }

  /** A `User` row; the password is kept only as the hash bcrypt produced. */
  datatype User = User(id: nat, username: string, email: string, passwordHash: string)

  /**
   * A `FileHistory` row: `storedName` is `processed_filename` (nullable),
   * `uploadedAt` stands for the `uploaded_at` timestamp.
   */
  datatype FileRecord = FileRecord(
    id: nat,
    owner: nat,
    originalName: string,
    storedName: Option<string>,
    status: Status,
    uploadedAt: int)

  datatype Store = Store(users: seq<User>, files: seq<FileRecord>)

  function EmptyStore(): Store
  {
    Store([], [])
  }

  predicate UniqueUserIds(users: seq<User>)
  {
    forall i, j :: 0 <= i < j < |users| ==> users[i].id != users[j].id
  }

  predicate UniqueUsernames(users: seq<User>)
  {
    forall i, j :: 0 <= i < j < |users| ==> users[i].username != users[j].username
  }

  predicate UniqueEmails(users: seq<User>)
  {
    forall i, j :: 0 <= i < j < |users| ==> users[i].email != users[j].email
  }

  predicate UniqueFileIds(files: seq<FileRecord>)
  {
    forall i, j :: 0 <= i < j < |files| ==> files[i].id != files[j].id
  }

  /**
   * The constraints the schema declares: primary keys and the `unique`
   * username and email columns.
   */
  predicate Valid(st: Store)
  {
    && UniqueUserIds(st.users)
    && UniqueUsernames(st.users)
    && UniqueEmails(st.users)
    && UniqueFileIds(st.files)
  }

  lemma EmptyStoreValid()
    ensures Valid(EmptyStore())
  {
  }

  /**
   * The id SQLite gives a new `User` row: one more than the largest id in
   * the table (1 for an empty table).
   */
  function NextUserId(users: seq<User>): (r: nat)
    ensures r >= 1
    ensures forall u :: u in users ==> u.id < r
  {
    if |users| == 0 then 1
    else
      var rest := NextUserId(users[1..]);
      assert forall u :: u in users ==> u == users[0] || u in users[1..];
      if users[0].id + 1 > rest then users[0].id + 1 else rest
  }

  /** The id SQLite gives a new `FileHistory` row, as for users. */
  function NextFileId(files: seq<FileRecord>): (r: nat)
    ensures r >= 1
    ensures forall f :: f in files ==> f.id < r
  {
    if |files| == 0 then 1
    else
      var rest := NextFileId(files[1..]);
      assert forall f :: f in files ==> f == files[0] || f in files[1..];
      if files[0].id + 1 > rest then files[0].id + 1 else rest
  }

  /**
   * Flask-Login's `current_user`: the user whose id the session cookie
   * carries, if that row exists (otherwise the visitor is anonymous).
   */
  function CurrentUser(st: Store, session: Option<nat>): (r: Option<User>)
    ensures r.Some? ==> session.Some? && r.value in st.users && r.value.id == session.value
    ensures r.None? ==> session.None? || forall u :: u in st.users ==> u.id != session.value
  {
    match session
    case None => None
    case Some(uid) => FindUserById(st.users, uid)
  }

  function FindUserById(users: seq<User>, id: nat): (r: Option<User>)
    ensures r.Some? ==> r.value in users && r.value.id == id
    ensures r.None? ==> forall u :: u in users ==> u.id != id
  {
    if |users| == 0 then None
    else if users[0].id == id then Some(users[0])
    else
      assert forall u :: u in users ==> u == users[0] || u in users[1..];
      FindUserById(users[1..], id)
  }

  /** One element of the `/api/history` JSON array. */
  datatype HistoryEntry = HistoryEntry(
    id: nat,
    originalFilename: string,
    uniqueId: Option<string>,
    status: string,
    date: int)

  /** The bodies the handlers send back. */
  datatype Body =
    | Message(message: string)
    | LoginOk(message: string, username: string)
    | Authenticated(username: string, id: nat)
    | NotAuthenticated
    | UploadResult(message: string, filename: string, status: string)
    | UploadError(message: string, status: string)
    | HistoryList(items: seq<HistoryEntry>)
    | Attachment(storedName: string, downloadName: string)
    | Inline(storedName: string)
    | Redirect(location: string)
    | Page

  datatype Reply = Reply(code: nat, body: Body)

  /** A handler's effect: the database after the request and the reply. */
  datatype Outcome = Outcome(store: Store, reply: Reply)

  /** The URL of `login_manager.login_view`, the `login` endpoint. */
  const LoginView: Option<string> := Some("/api/login")

  /**
   * Flask-Login's refusal of an anonymous visitor on a `@login_required`
   * route: a 302 to the login view when one is configured, otherwise a
   * 401 carrying Werkzeug's HTML error page (`Page`: never JSON).
   */
  function LoginRequiredRefusal(loginView: Option<string>): (r: Reply)
    ensures loginView.Some? ==> r.code == 302 && r.body == Redirect(loginView.value)
    ensures loginView.None? ==> r.code == 401 && r.body == Page
  {
    match loginView
    case Some(url) => Reply(302, Redirect(url))
    case None => Reply(401, Page)
  }

  /** The refusal this application sends: the redirect to /api/login. */
  function Unauthorized(): (r: Reply)
    ensures r.code == 302 && r.body == Redirect("/api/login")
    ensures r == LoginRequiredRefusal(LoginView)
  {
    LoginRequiredRefusal(LoginView)
  }

  /**
   * The reply to a request for /api/login that is not a POST, which is
   * what following the login redirect produces. The login route takes
   * only POST (a POST is `Accounts.Login`), so a GET falls through to the
   * catch-all `serve_frontend`: index.html when the front end is built,
   * a 404 otherwise. No route takes a DELETE on that path, so Werkzeug
   * answers 405. None of these bodies is JSON.
   */
  function LoginPathReply(m: Method, frontendBuilt: bool): (r: Reply)
    requires m != POST
    ensures r.body == Page
    ensures m == GET ==> (r.code == 200 <==> frontendBuilt) && (r.code == 404 <==> !frontendBuilt)
    ensures m == DELETE ==> r.code == 405
  {
    if m == DELETE then Reply(405, Page)
    else if frontendBuilt then Reply(200, Page)
    else Reply(404, Page)
  }
}

=== FILE: end_to_end.dfy ===
/**
 * Properties that span the client controllers and the backend handlers:
 * what the controllers end up showing for the replies the backend
 * actually produces. A backend reply reaches a controller as `fetch`
 * presents it: a 2xx status is `Ok`, anything else `HttpError`, and a
 * body that is not JSON (the page served at the login view) fails to
 * parse.
 */
module EndToEnd {
  import opened Wrappers
  import opened Text
  import opened Http
  import opened BackendStore
  import opened Accounts
  import opened Files
  import opened SqlLike
  import LoginForm
  import UploadJob
  import HistoryView

  /** A body `response.json()` cannot parse. */
  predicate NotJson(b: Body)
  {
    b.Page? || b.Redirect?
  }

  /**
   * The reply `fetch` hands a controller for a request with method `m`.
   * The login gate's redirect is followed to the login view with the
   * method the redirect rules give; there the catch-all route answers a
   * GET with the front end's page (404 when it is not built) and no route
   * accepts a DELETE. Every other reply arrives as it was sent.
   */
  function Delivered(r: Reply, m: Method, frontendBuilt: bool): (d: Reply)
    ensures !r.body.Redirect? ==> d == r
    ensures r.body.Redirect? ==> d.body == Page
    ensures r.body.Redirect? && m == DELETE ==> d.code == 405
    ensures r.body.Redirect? && m != DELETE ==> (IsOkStatus(d.code) <==> frontendBuilt)
  {
    if r.body.Redirect? then LoginPathReply(RedirectMethod(m), frontendBuilt) else r
  }

  /** An upload reply as `handleUpload` receives it: the body is parsed before the status is read. */
  function UploadResponse(r: Reply): (resp: Response<UploadJob.UploadBody>)
    ensures NotJson(r.body) ==> resp.TransportOrParseFailure?
    ensures !NotJson(r.body) ==> !resp.TransportOrParseFailure? && (resp.Ok? <==> IsOkStatus(r.code))
    ensures r.body.UploadResult? ==>
      resp.body == UploadJob.UploadBody(Some(r.body.status), Some(r.body.filename), Some(r.body.message))
  {
    if NotJson(r.body) then TransportOrParseFailure
    else
      var body := match r.body
        case UploadResult(m, f, s) => UploadJob.UploadBody(Some(s), Some(f), Some(m))
        case UploadError(m, s) => UploadJob.UploadBody(Some(s), None, Some(m))
        case Message(m) => UploadJob.UploadBody(None, None, Some(m))
        case _ => UploadJob.UploadBody(None, None, None);
      if IsOkStatus(r.code) then Ok(body) else HttpError(r.code, body)
  }

  function ToItem(e: HistoryEntry): (it: HistoryView.Item)
    ensures it.id == e.id && it.uniqueId == e.uniqueId && it.status == e.status
  {
    HistoryView.Item(e.id, e.uniqueId, e.originalFilename, e.status, e.date)
  }

  function ToItems(es: seq<HistoryEntry>): (r: seq<HistoryView.Item>)
    ensures |r| == |es|
    ensures forall i :: 0 <= i < |es| ==> r[i] == ToItem(es[i])
  {
    if |es| == 0 then [] else [ToItem(es[0])] + ToItems(es[1..])
  }

  /**
   * A history reply as `fetchHistory` receives it: the 401 test and the
   * status test precede parsing. Of the bodies the backend sends on a 2xx
   * status, the history list parses and the front end's page does not.
   */
  function HistoryResponse(r: Reply): (resp: Response<seq<HistoryView.Item>>)
    ensures r.code == 401 ==> resp == HttpError(401, [])
    ensures !IsOkStatus(r.code) ==> resp == HttpError(r.code, [])
    ensures IsOkStatus(r.code) && r.body.HistoryList? ==> resp == Ok(ToItems(r.body.items))
    ensures IsOkStatus(r.code) && !r.body.HistoryList? ==> resp.TransportOrParseFailure?
  {
    if r.code == 401 then HttpError(401, [])
    else if IsOkStatus(r.code) then
      match r.body
      case HistoryList(items) => Ok(ToItems(items))
      case _ => TransportOrParseFailure
    else HttpError(r.code, [])
  }

  /** A delete reply as `handleDelete` receives it: only the status is read. */
  function DeleteResponse(r: Reply): (resp: Response<()>)
    ensures resp.Ok? <==> IsOkStatus(r.code)
    ensures !resp.TransportOrParseFailure?
  {
    if IsOkStatus(r.code) then Ok(()) else HttpError(r.code, ())
  }

  /** A login or registration reply as `handleSubmit` receives it: the body is parsed first. */
  function AuthResponse(r: Reply): (resp: Response<LoginForm.AuthBody>)
    ensures NotJson(r.body) <==> resp.TransportOrParseFailure?
    ensures r.body.LoginOk? && IsOkStatus(r.code) ==>
      resp == Ok(LoginForm.AuthBody(Some(r.body.message), Some(r.body.username)))
    ensures r.body.Message? && !IsOkStatus(r.code) ==>
      resp == HttpError(r.code, LoginForm.AuthBody(Some(r.body.message), None))
  {
    var body := match r.body
      case LoginOk(m, u) => LoginForm.AuthBody(Some(m), Some(u))
      case Message(m) => LoginForm.AuthBody(Some(m), None)
      case _ => LoginForm.AuthBody(None, None);
    if NotJson(r.body) then TransportOrParseFailure
    else if IsOkStatus(r.code) then Ok(body) else HttpError(r.code, body)
  }

  /**
   * Logging in through the popup: when the backend accepts the
   * credentials the popup hands the stored username (or "User" for an
   * empty one) to the session and schedules its close; when it refuses,
   * the popup shows the backend's message and sets no user.
   */
  lemma LoginThroughPopup(
    st: Store, session: Option<nat>, f: LoginForm.Form,
    checks: (string, Option<string>) -> bool)
    requires !f.registering
    ensures
      var req := LoginForm.Submit(f).1;
      var back := Login(st, session, Some(f.email), Some(f.password), checks).reply;
      var fx := LoginForm.Resolve(LoginForm.Submit(f).0, req, AuthResponse(back));
      && (back.code == 200 ==>
            fx.closeScheduled && fx.setUser == Some(OrElse(Some(back.body.username), "User")))
      && (back.code == 401 ==>
            fx.setUser.None? && fx.form.message == "Error: Invalid email or password")
  {
    var req := LoginForm.Submit(f).1;
    assert req.creds.LoginCredentials?;
    var back := Login(st, session, Some(f.email), Some(f.password), checks).reply;
    var resp := AuthResponse(back);
    if back.code == 200 {
      assert back.body.LoginOk?;
      assert resp == Ok(LoginForm.AuthBody(Some(back.body.message), Some(back.body.username)));
    } else {
      assert resp == HttpError(401, LoginForm.AuthBody(Some("Invalid email or password"), None));
      var fx := LoginForm.Resolve(LoginForm.Submit(f).0, req, resp);
      assert fx.form.message == "Error: " + Interpolate(Some("Invalid email or password"));
      assert Interpolate(Some("Invalid email or password")) == "Invalid email or password";
    }
  }

  /**
   * A registration the browser lets through (every required input filled)
   * never meets the backend's "Missing required fields" refusal.
   */
  lemma RegisterFormPassesFieldCheck(st: Store, f: LoginForm.Form, hash: string -> string)
    requires f.registering && LoginForm.RequiredFieldsFilled(f)
    ensures
      var c := LoginForm.Submit(f).1.creds;
      Register(st, Some(c.username), Some(c.email), Some(c.password), hash).reply.code != 400
  {
  }

  /**
   * A fresh uuid free of `LIKE` wildcards, matched by no earlier row,
   * selects the row just appended under either lookup.
   */
  lemma FreshUuidFindsNewRow(st: Store, out: Store, uuid: string)
    requires NoWildcard(uuid)
    requires |out.files| == |st.files| + 1 && out.files[..|st.files|] == st.files
    requires forall f :: f in st.files ==> !LikeMatches(uuid, f)
    requires PrefixMatches(uuid, out.files[|st.files|])
    ensures FindByLike(out.files, uuid) == Some(out.files[|st.files|])
    ensures FindByPrefix(out.files, uuid) == Some(out.files[|st.files|])
  {
    var row := out.files[|st.files|];
    assert out.files == st.files + [row];
    LikeOfLiteralPrefix(uuid, row.storedName.value);
    forall f | f in st.files ensures !PrefixMatches(uuid, f) {
      if PrefixMatches(uuid, f) {
        LikeOfLiteralPrefix(uuid, f.storedName.value);
      }
    }
    FindFirstOfAppended(st.files, row, f => LikeMatches(uuid, f));
    FindFirstOfAppended(st.files, row, f => PrefixMatches(uuid, f));
  }

  /**
   * The backend half of an upload: a logged-in upload of an allowed file
   * is answered 201 with the uuid and the processor's verdict, and the
   * download route, as written and corrected, then finds the new row by
   * that uuid, serving it after a success and answering 409 after a
   * failure.
   */
  lemma UploadedRowIsDownloadable(
    st: Store, session: Option<nat>, name: string,
    secure: string -> string, uuid: string, processed: bool, now: int)
    requires AllowedFile(name) && CurrentUser(st, session).Some?
    requires RouteSegment(uuid) && NoWildcard(uuid)
    requires forall f :: f in st.files ==> !LikeMatches(uuid, f)
    ensures
      var out := Upload(st, session, Some(FilePart(name)), secure, uuid, None, processed, now);
      && out.reply == Reply(201, UploadResult(out.reply.body.message, uuid,
                                              if processed then "completed" else "failed"))
      && (processed ==> DownloadAsWritten(out.store, uuid).code == 200 && Download(out.store, uuid).code == 200)
      && (!processed ==> DownloadAsWritten(out.store, uuid).code == 409 && Download(out.store, uuid).code == 409)
  {
    var out := Upload(st, session, Some(FilePart(name)), secure, uuid, None, processed, now);
    UploadReportsStatus(st, session, Some(FilePart(name)), secure, uuid, None, processed, now);
    var row := out.store.files[|st.files|];
    assert PrefixMatches(uuid, row) by {
      PrefixOfConcat(uuid, SplitExt(secure(name)));
    }
    FreshUuidFindsNewRow(st, out.store, uuid);
  }

  /**
   * The client half: a 201 upload result clears the selection and ends
   * the upload; the returned filename becomes the download id exactly
   * when the status is "completed", and then the link is shown.
   */
  lemma ClientTakesUploadResult(j: UploadJob.Job, message: string, filename: string, status: string)
    requires j.file.Some? && filename != ""
    ensures
      var after := UploadJob.Resolve(UploadJob.Submit(j).0,
                                     UploadResponse(Reply(201, UploadResult(message, filename, status))));
      && after.file.None? && !after.uploading
      && (after.downloadId.Some? <==> status == "completed")
      && (status == "completed" ==> after.downloadId == Some(filename) && UploadJob.LinkShown(after))
  {
    var resp := UploadResponse(Reply(201, UploadResult(message, filename, status)));
    assert resp == Ok(UploadJob.UploadBody(Some(status), Some(filename), Some(message)));
  }

  /**
   * One upload from selection to download. The client sends its selected
   * image; the backend stores it under a fresh uuid and answers 201. The
   * client then holds a download id exactly when processing succeeded, and
   * that id is the uuid; the download route as written serves the
   * processed file for it, or answers 409 when processing failed.
   */
  lemma UploadThenDownload(
    st: Store, session: Option<nat>, j: UploadJob.Job,
    secure: string -> string, uuid: string, processed: bool, now: int)
    requires j.file.Some? && AllowedFile(j.file.value.name)
    requires CurrentUser(st, session).Some?
    requires RouteSegment(uuid) && NoWildcard(uuid)
    requires forall f :: f in st.files ==> !LikeMatches(uuid, f)
    ensures
      var (sent, payload) := UploadJob.Submit(j);
      var out := Upload(st, session, Some(FilePart(payload.value.name)), secure, uuid, None, processed, now);
      var after := UploadJob.Resolve(sent, UploadResponse(out.reply));
      && out.reply.code == 201
      && after.file.None? && !after.uploading
      && (after.downloadId.Some? <==> processed)
      && (processed ==> after.downloadId == Some(uuid) && UploadJob.LinkShown(after)
                        && DownloadAsWritten(out.store, uuid).code == 200)
      && (!processed ==> DownloadAsWritten(out.store, uuid).code == 409)
  {
    var name := j.file.value.name;
    assert UploadJob.Submit(j).1 == j.file;
    UploadedRowIsDownloadable(st, session, name, secure, uuid, processed, now);
    var out := Upload(st, session, Some(FilePart(name)), secure, uuid, None, processed, now);
    ClientTakesUploadResult(j, out.reply.body.message, uuid, if processed then "completed" else "failed");
  }

  /** A card built from a row's entry shows the footer that row's status calls for. */
  predicate FooterMatchesRow(it: HistoryView.Item, f: FileRecord)
  {
    && (HistoryView.FooterFor(it).DownloadButton? <==> f.status == Completed)
    && (HistoryView.FooterFor(it).DisabledFailed? <==> f.status == Failed)
  }

  lemma EntryFooter(f: FileRecord)
    ensures FooterMatchesRow(ToItem(Entry(f)), f)
  {
  }

  /**
   * The history a client shows after fetching from the backend: the load
   * failure for an anonymous visitor, whose fetch follows the redirect to
   * the login view; otherwise one card per row the user owns, whose footer
   * offers the download exactly for COMPLETED rows and the Failed button
   * exactly for FAILED rows, because the backend sends the status column's
   * upper-case text.
   */
  lemma HistoryFetchShowsServerStatus(st: Store, session: Option<nat>, frontendBuilt: bool)
    ensures
      var s := HistoryView.ApplyFetch(HistoryView.Initial(),
                                      HistoryResponse(Delivered(History(st, session), GET, frontendBuilt)));
      && (CurrentUser(st, session).None? ==> s.error == Some(HistoryView.LoadFailure) && s.items == [])
      && (CurrentUser(st, session).Some? ==>
            && s.error.None?
            && |s.items| == |Owned(st.files, session.value)|
            && (forall it :: it in s.items ==>
                  exists f :: f in st.files && Some(f.owner) == session && it.id == f.id
                              && FooterMatchesRow(it, f)))
  {
    var h := History(st, session);
    if CurrentUser(st, session).Some? {
      var items := ToItems(h.body.items);
      forall it | it in items
        ensures exists f :: (f in st.files && Some(f.owner) == session && it.id == f.id
                             && FooterMatchesRow(it, f))
      {
        var i :| 0 <= i < |items| && items[i] == it;
        var e := h.body.items[i];
        assert e in h.body.items;
        var f :| f in st.files && Some(f.owner) == session && e == Entry(f);
        EntryFooter(f);
      }
    }
  }

  /**
   * Deleting one's own row: the backend answers 200, the client drops the
   * card, and a fresh fetch does not bring it back.
   */
  lemma DeletedItemStaysGone(st: Store, session: Option<nat>, s: HistoryView.HistoryState, id: nat)
    requires Valid(st)
    requires CurrentUser(st, session).Some?
    requires exists f :: f in st.files && f.id == id && Some(f.owner) == session
    ensures
      var out := Delete(st, session, id);
      var local := HistoryView.ApplyDelete(s, id, Ok(()));
      var refetched := HistoryView.ApplyFetch(local.state, HistoryResponse(History(out.store, session)));
      && out.reply.code == 200
      && (forall it :: it in local.state.items ==> it.id != id)
      && (forall it :: it in refetched.items ==> it.id != id)
  {
    var out := Delete(st, session, id);
    DeletePreservesValid(st, session, id);
    var h := History(out.store, session);
    var items := ToItems(h.body.items);
    forall it | it in items ensures it.id != id {
      var i :| 0 <= i < |items| && items[i] == it;
      assert h.body.items[i] in h.body.items;
    }
  }

  /**
   * The login prompt of the history page is never shown: whatever the
   * store and session, the first fetch ends without the prompt, because
   * an anonymous visitor is redirected rather than answered 401.
   */
  lemma LoginPromptUnreachable(st: Store, session: Option<nat>, frontendBuilt: bool)
    ensures
      var s := HistoryView.ApplyFetch(HistoryView.Initial(),
                                      HistoryResponse(Delivered(History(st, session), GET, frontendBuilt)));
      s.error != Some(HistoryView.LoginPrompt)
  {
    var d := Delivered(History(st, session), GET, frontendBuilt);
    assert d.code != 401;
  }

  /**
   * With no login view configured, the login gate answers 401, and then
   * the anonymous history fetch shows the login prompt the page provides
   * for it. The configured gate is that refusal with the login view.
   */
  lemma PromptWithoutLoginView(st: Store, session: Option<nat>, frontendBuilt: bool)
    requires CurrentUser(st, session).None?
    ensures History(st, session) == LoginRequiredRefusal(LoginView)
    ensures
      var s := HistoryView.ApplyFetch(HistoryView.Initial(),
                                      HistoryResponse(Delivered(LoginRequiredRefusal(None), GET, frontendBuilt)));
      s.error == Some(HistoryView.LoginPrompt) && s.items == []
  {
  }

  /**
   * An anonymous upload: the redirected request comes back as a page, the
   * client reports a network failure and keeps the selected file.
   */
  lemma AnonymousUploadReportsNetworkFailure(
    st: Store, session: Option<nat>, j: UploadJob.Job, secure: string -> string,
    uuid: string, saveError: Option<string>, processed: bool, now: int, frontendBuilt: bool)
    requires CurrentUser(st, session).None? && j.file.Some?
    ensures
      var (sent, payload) := UploadJob.Submit(j);
      var out := Upload(st, session, Some(FilePart(payload.value.name)), secure, uuid, saveError, processed, now);
      var after := UploadJob.Resolve(sent, UploadResponse(Delivered(out.reply, POST, frontendBuilt)));
      && out.store == st
      && after.message == "Network connection failed. Is the Flask server running?"
      && after.file == j.file && !after.uploading
  {
    assert UploadJob.Submit(j).1 == j.file;
  }

  /**
   * An anonymous delete: the redirected DELETE is refused with 405, the
   * store is untouched and the client keeps its list and alerts that the
   * delete failed.
   */
  lemma AnonymousDeleteAlerts(
    st: Store, session: Option<nat>, s: HistoryView.HistoryState, id: nat, frontendBuilt: bool)
    requires CurrentUser(st, session).None?
    ensures
      var out := Delete(st, session, id);
      var r := HistoryView.ApplyDelete(s, id, DeleteResponse(Delivered(out.reply, DELETE, frontendBuilt)));
      && out.store == st
      && r.state == s && r.alert == Some("Failed to delete the file.")
  {
  }
}

=== FILE: files.dfy ===
/**
 * The file-handling handlers of Backend/app.py: `allowed_file`,
 * `upload_file`, `get_user_history`, `delete_history_item`,
 * `download_file` and `view_file`, over the abstract store.
 *
 * `secure_filename` and `uuid4` are opaque inputs, the image processor is
 * the boolean `processed`, and a failure of `file.save` is the optional
 * exception text `saveError`. `os.path.splitext` is modelled exactly.
 */
module Files {
  import opened Wrappers
  import opened Text
  import opened SqlLike
  import opened BackendStore

  // ----- allowed_file -------------------------------------------------------

  const AllowedExtensions: set<string> := {"png", "jpg", "jpeg"}

  /**
   * `allowed_file`: the name contains a '.' and the text after the last
   * '.', lower-cased, is one of the allowed extensions.
   */
  function AllowedFile(filename: string): bool
  {
    '.' in filename && Lower(AfterLast(filename, '.')) in AllowedExtensions
  }

  /**
   * `AllowedFile` accepts a name exactly when it splits at some '.' into a
   * stem and an extension that has no further '.', and that extension in
   * lower case is allowed.
   */
  lemma AllowedFileIff(filename: string)
    ensures AllowedFile(filename) <==>
      (exists k :: 0 <= k < |filename| && filename[k] == '.' && '.' !in filename[k + 1..]
        && Lower(filename[k + 1..]) in AllowedExtensions)
  {
    if k :| (0 <= k < |filename| && filename[k] == '.' && '.' !in filename[k + 1..]
             && Lower(filename[k + 1..]) in AllowedExtensions) {
      LastDotIsUnique(filename, k);
    }
    if AllowedFile(filename) {
      var e := AfterLast(filename, '.');
      var j := |filename| - |e| - 1;
      assert filename[j + 1..] == e;
    }
  }

  /** A '.' with no '.' after it is where `AfterLast` splits. */
  lemma LastDotIsUnique(s: string, k: nat)
    requires k < |s| && s[k] == '.' && '.' !in s[k + 1..]
    ensures AfterLast(s, '.') == s[k + 1..]
  {
  }

  lemma AllowedUpperPng()
    ensures AllowedFile("a.PNG")
  {
    LastDotIsUnique("a.PNG", 1);
    assert "a.PNG"[2..] == "PNG";
    assert Lower("PNG") == "png";
  }

  lemma AllowedDotPng()
    ensures AllowedFile(".png")
  {
    LastDotIsUnique(".png", 0);
    assert ".png"[1..] == "png";
    assert Lower("png") == "png";
  }

  lemma RejectedNoDot()
    ensures !AllowedFile("png")
  {
    assert forall i :: 0 <= i < 3 ==> "png"[i] != '.';
  }

  lemma RejectedDoubleExtension()
    ensures !AllowedFile("a.png.exe")
  {
    LastDotIsUnique("a.png.exe", 5);
    assert "a.png.exe"[6..] == "exe";
    assert Lower("exe") == "exe";
  }

  // ----- os.path.splitext ----------------------------------------------------

  /**
   * The extension `posixpath.splitext` splits off: from the last '.' on,
   * provided that '.' comes after the last '/' and some character other
   * than '.' precedes it within the final path component; otherwise "".
   */
  function SplitExt(p: string): (ext: string)
    ensures IsSuffix(ext, p)
    ensures ext == "" || (ext[0] == '.' && '.' !in ext[1..] && '/' !in ext)
  {
    match LastIndexOf(p, '.')
    case None => ""
    case Some(dot) =>
      var sep := LastIndexOf(p, '/');
      var start := if sep.Some? then sep.value + 1 else 0;
      if start <= dot && exists i :: start <= i < dot && p[i] != '.' then
        assert '/' !in p[start..];
        assert p[dot..] == p[start..][dot - start..];
        assert p[dot..][1..] == p[dot + 1..];
        p[dot..]
      else ""
  }

  lemma SplitExtOfImageName()
    ensures SplitExt("photo.png") == ".png"
  {
    var p := "photo.png";
    assert p[5] == '.' && p[6..] == "png";
    assert LastIndexOf(p, '.') == Some(5);
    assert '/' !in p;
    assert p[0] != '.';
  }

  lemma SplitExtOfDotfile()
    ensures SplitExt(".bashrc") == ""
  {
    var p := ".bashrc";
    assert p[0] == '.' && p[1..] == "bashrc";
    assert LastIndexOf(p, '.') == Some(0);
  }

  // ----- upload_file ----------------------------------------------------------

  /** The multipart part named `file`, carrying its client-side filename. */
  datatype FilePart = FilePart(filename: string)

  /** The name the upload is stored under: uuid base plus original extension. */
  function StoredName(uuid: string, secured: string): string
  {
    uuid + SplitExt(secured)
  }

  /** The row committed before processing starts: owned by `owner`, PENDING. */
  function PendingRecord(files: seq<FileRecord>, owner: nat, filename: string, stored: string, now: int): (r: FileRecord)
    ensures r.status == Pending && r.owner == owner && r.originalName == filename
    ensures r.storedName == Some(stored) && r.uploadedAt == now
    ensures forall f :: f in files ==> f.id != r.id
  {
    FileRecord(NextFileId(files), owner, filename, Some(stored), Pending, now)
  }

  /** The status the processor's verdict moves a PENDING row to. */
  function Settle(success: bool): (s: Status)
    ensures s == Completed <==> success
    ensures s == Failed <==> !success
  {
    if success then Completed else Failed
  }

  /** The error an upload request is refused with, in the order checked. */
  function UploadRejection(part: Option<FilePart>): (r: Option<string>)
    ensures r == Some("No file part") <==> part.None?
    ensures r == Some("No selected file") <==> part.Some? && part.value.filename == ""
    ensures r == Some("File type not allowed") <==>
      part.Some? && part.value.filename != "" && !AllowedFile(part.value.filename)
    ensures r.None? <==> part.Some? && part.value.filename != "" && AllowedFile(part.value.filename)
  {
    match part
    case None => Some("No file part")
    case Some(fp) =>
      if fp.filename == "" then Some("No selected file")
      else if !AllowedFile(fp.filename) then Some("File type not allowed")
      else None
  }

  /**
   * POST /api/upload. After the login gate (the redirect to the login view
   * for an anonymous visitor) and the three 400 checks, the
   * original is saved, a PENDING row is committed, the processor runs and
   * the row ends COMPLETED or FAILED; both answer 201 with the uuid base
   * and the lower-cased status. A failed save rolls back and answers 500.
   */
  function Upload(
    st: Store,
    session: Option<nat>,
    part: Option<FilePart>,
    secure: string -> string,
    uuid: string,
    saveError: Option<string>,
    processed: bool,
    now: int): (r: Outcome)
    ensures r.reply.code == 302 <==> CurrentUser(st, session).None?
    ensures CurrentUser(st, session).None? ==> r.reply == Unauthorized()
    ensures r.reply.code == 400 <==>
      CurrentUser(st, session).Some? && UploadRejection(part).Some?
    ensures r.reply.code == 400 ==> r.reply.body == Message(UploadRejection(part).value)
    ensures r.reply.code in {302, 400, 500, 201}
    ensures r.reply.code != 201 ==> r.store == st
    ensures r.reply.code == 500 ==> saveError.Some?
    ensures r.store.users == st.users
    ensures r.reply.code == 201 ==>
      && saveError.None?
      && |r.store.files| == |st.files| + 1
      && r.store.files[..|st.files|] == st.files
      && var f := r.store.files[|st.files|];
         && Some(f.owner) == session
         && f.originalName == part.value.filename
         && f.storedName == Some(uuid + SplitExt(secure(part.value.filename)))
         && (f.status == Completed <==> processed)
         && (f.status == Failed <==> !processed)
         && f.uploadedAt == now
         && (forall g :: g in st.files ==> g.id != f.id)
         && r.reply.body.UploadResult?
         && r.reply.body.filename == uuid
         && r.reply.body.status == Lower(StatusName(f.status))
  {
    match CurrentUser(st, session)
    case None => Outcome(st, Unauthorized())
    case Some(user) =>
      match UploadRejection(part)
      case Some(msg) => Outcome(st, Reply(400, Message(msg)))
      case None =>
        var stored := StoredName(uuid, secure(part.value.filename));
        if saveError.Some? then
          Outcome(st, Reply(500, UploadError("Upload failed: " + saveError.value, "error")))
        else
          var pending := PendingRecord(st.files, user.id, part.value.filename, stored, now);
          var done := pending.(status := Settle(processed));
          var message :=
            if processed then "File uploaded and processed successfully."
            else "File uploaded, but processing failed.";
          Outcome(st.(files := st.files + [done]),
                  Reply(201, UploadResult(message, uuid, Lower(StatusName(done.status)))))
  }

  /** The `status` field of a 201 upload reply is "completed" or "failed", by the processor's verdict. */
  lemma UploadReportsStatus(
    st: Store, session: Option<nat>, part: Option<FilePart>, secure: string -> string,
    uuid: string, saveError: Option<string>, processed: bool, now: int)
    requires Upload(st, session, part, secure, uuid, saveError, processed, now).reply.code == 201
    ensures
      var b := Upload(st, session, part, secure, uuid, saveError, processed, now).reply.body;
      b.status == (if processed then "completed" else "failed")
  {
    LowerStatusNames();
  }

  /** The lower-cased column texts of the two final statuses. */
  lemma LowerStatusNames()
    ensures Lower(StatusName(Completed)) == "completed"
    ensures Lower(StatusName(Failed)) == "failed"
  {
    var c := Lower("COMPLETED");
    assert c[0] == 'c' && c[1] == 'o' && c[2] == 'm' && c[3] == 'p' && c[4] == 'l';
    assert c[5] == 'e' && c[6] == 't' && c[7] == 'e' && c[8] == 'd';
    var f := Lower("FAILED");
    assert f[0] == 'f' && f[1] == 'a' && f[2] == 'i' && f[3] == 'l' && f[4] == 'e' && f[5] == 'd';
  }

  /** Uploading keeps the store's uniqueness constraints. */
  lemma UploadPreservesValid(
    st: Store, session: Option<nat>, part: Option<FilePart>, secure: string -> string,
    uuid: string, saveError: Option<string>, processed: bool, now: int)
    requires Valid(st)
    ensures Valid(Upload(st, session, part, secure, uuid, saveError, processed, now).store)
  {
    var r := Upload(st, session, part, secure, uuid, saveError, processed, now);
    if r.reply.code == 201 {
      var files := r.store.files;
      forall i, j | 0 <= i < j < |files| ensures files[i].id != files[j].id {
        assert files[i] == st.files[i];
        if j < |st.files| {
          assert files[j] == st.files[j];
        } else {
          assert files[i] in st.files;
        }
      }
    }
  }

  /**
   * The round trip the client relies on: once an upload succeeds, the
   * uploader's history lists the new row with `unique_id` equal to the
   * `filename` the upload answered, because the uuid base has no '.' and
   * the extension is empty or starts with '.'.
   */
  lemma UploadThenHistoryRoundTrip(
    st: Store, session: Option<nat>, part: Option<FilePart>, secure: string -> string,
    uuid: string, saveError: Option<string>, processed: bool, now: int)
    requires Upload(st, session, part, secure, uuid, saveError, processed, now).reply.code == 201
    requires uuid != "" && '.' !in uuid
    ensures
      var r := Upload(st, session, part, secure, uuid, saveError, processed, now);
      var h := History(r.store, session);
      && h.code == 200
      && (exists e :: e in h.body.items && e.uniqueId == Some(r.reply.body.filename)
                     && e.id == r.store.files[|st.files|].id)
  {
    var r := Upload(st, session, part, secure, uuid, saveError, processed, now);
    var f := r.store.files[|st.files|];
    var ext := SplitExt(secure(part.value.filename));
    BeforeFirstOfJoin(uuid, ext, '.');
    assert f in r.store.files;
    assert Entry(f).uniqueId == Some(uuid);
  }

  // ----- get_user_history -------------------------------------------------------

  /** The rows of one user, in store order. */
  function Owned(files: seq<FileRecord>, uid: nat): (r: seq<FileRecord>)
    ensures forall f :: f in r <==> f in files && f.owner == uid
    ensures forall f :: multiset(r)[f] == if f.owner == uid then multiset(files)[f] else 0
    ensures |r| <= |files|
  {
    if |files| == 0 then []
    else
      assert files == [files[0]] + files[1..];
      assert forall f :: f in files ==> f == files[0] || f in files[1..];
      if files[0].owner == uid then [files[0]] + Owned(files[1..], uid)
      else Owned(files[1..], uid)
  }

  predicate NewestFirst(rs: seq<FileRecord>)
  {
    forall i, j :: 0 <= i < j < |rs| ==> rs[i].uploadedAt >= rs[j].uploadedAt
  }

  /** Prepending a row at least as new as every other keeps the order. */
  lemma ConsNewestFirst(h: FileRecord, t: seq<FileRecord>)
    requires NewestFirst(t)
    requires forall g :: g in multiset(t) ==> h.uploadedAt >= g.uploadedAt
    ensures NewestFirst([h] + t)
  {
    var s := [h] + t;
    forall i, j | 0 <= i < j < |s| ensures s[i].uploadedAt >= s[j].uploadedAt {
      if i == 0 {
        assert s[j] == t[j - 1];
        assert t[j - 1] in multiset(t);
      } else {
        assert s[i] == t[i - 1] && s[j] == t[j - 1];
      }
    }
  }

  /** Inserts `x` before the first row not strictly newer than it. */
  function InsertByTime(x: FileRecord, rs: seq<FileRecord>): (r: seq<FileRecord>)
    ensures multiset(r) == multiset(rs) + multiset{x}
  {
    if |rs| == 0 then [x]
    else if rs[0].uploadedAt > x.uploadedAt then
      assert rs == [rs[0]] + rs[1..];
      [rs[0]] + InsertByTime(x, rs[1..])
    else [x] + rs
  }

  lemma TailNewestFirst(rs: seq<FileRecord>)
    requires NewestFirst(rs) && |rs| > 0
    ensures NewestFirst(rs[1..])
  {
    forall i, j | 0 <= i < j < |rs[1..]| ensures rs[1..][i].uploadedAt >= rs[1..][j].uploadedAt {
      assert rs[1..][i] == rs[i + 1] && rs[1..][j] == rs[j + 1];
    }
  }

  /** Inserting into a newest-first list keeps it newest first. */
  lemma {:induction false} InsertKeepsNewestFirst(x: FileRecord, rs: seq<FileRecord>)
    requires NewestFirst(rs)
    ensures NewestFirst(InsertByTime(x, rs))
  {
    if |rs| == 0 {
    } else if rs[0].uploadedAt > x.uploadedAt {
      TailNewestFirst(rs);
      InsertKeepsNewestFirst(x, rs[1..]);
      var tail := InsertByTime(x, rs[1..]);
      forall g: FileRecord | g in multiset(tail) ensures rs[0].uploadedAt >= g.uploadedAt {
        if g != x {
          assert g in multiset(rs[1..]);
          var j :| 0 <= j < |rs[1..]| && rs[1..][j] == g;
          assert rs[j + 1] == g;
        }
      }
      ConsNewestFirst(rs[0], tail);
    } else {
      forall g: FileRecord | g in multiset(rs) ensures x.uploadedAt >= g.uploadedAt {
        var j :| 0 <= j < |rs| && rs[j] == g;
        assert j == 0 || rs[0].uploadedAt >= rs[j].uploadedAt;
      }
      ConsNewestFirst(x, rs);
    }
  }

  /**
   * `ORDER BY uploaded_at DESC`: newest first. SQL leaves the order of
   * equal timestamps open; this sort keeps them in store order.
   */
  function SortNewestFirst(rs: seq<FileRecord>): (r: seq<FileRecord>)
    ensures NewestFirst(r)
    ensures multiset(r) == multiset(rs)
  {
    if |rs| == 0 then []
    else
      assert rs == [rs[0]] + rs[1..];
      var sorted := SortNewestFirst(rs[1..]);
      InsertKeepsNewestFirst(rs[0], sorted);
      InsertByTime(rs[0], sorted)
  }

  /** `unique_id`: the stored name up to its first '.', or None when the name is null or empty. */
  function UniqueId(stored: Option<string>): (r: Option<string>)
    ensures r.Some? <==> stored.Some? && stored.value != ""
    ensures r.Some? ==> IsPrefix(r.value, stored.value) && '.' !in r.value
    ensures r.Some? && |r.value| < |stored.value| ==> stored.value[|r.value|] == '.'
  {
    if stored.Some? && stored.value != "" then Some(BeforeFirst(stored.value, '.')) else None
  }

  /** The JSON object `get_user_history` builds for one row. */
  function Entry(f: FileRecord): (e: HistoryEntry)
    ensures e.id == f.id && e.originalFilename == f.originalName && e.date == f.uploadedAt
    ensures e.status == StatusName(f.status)
    ensures e.uniqueId == UniqueId(f.storedName)
  {
    HistoryEntry(f.id, f.originalName, UniqueId(f.storedName), StatusName(f.status), f.uploadedAt)
  }

  function Entries(rs: seq<FileRecord>): (es: seq<HistoryEntry>)
    ensures |es| == |rs|
    ensures forall i :: 0 <= i < |rs| ==> es[i] == Entry(rs[i])
  {
    if |rs| == 0 then [] else [Entry(rs[0])] + Entries(rs[1..])
  }

  /** A newest-first list of rows gives entries with non-increasing dates. */
  lemma EntriesNewestFirst(rs: seq<FileRecord>)
    requires NewestFirst(rs)
    ensures forall i, j :: 0 <= i < j < |Entries(rs)| ==> Entries(rs)[i].date >= Entries(rs)[j].date
  {
  }

  /** The entries of a list are exactly the entries of its rows. */
  lemma EntriesMembership(rs: seq<FileRecord>)
    ensures forall f :: f in rs ==> Entry(f) in Entries(rs)
    ensures forall e :: e in Entries(rs) ==> exists f :: f in rs && e == Entry(f)
  {
    var items := Entries(rs);
    forall f | f in rs ensures Entry(f) in items {
      var i :| 0 <= i < |rs| && rs[i] == f;
      assert items[i] == Entry(f);
    }
    forall e | e in items ensures exists f :: f in rs && e == Entry(f) {
      var i :| 0 <= i < |items| && items[i] == e;
      assert rs[i] in rs;
    }
  }

  /** The rows `get_user_history` lists for user `uid`, newest first. */
  function HistoryRows(files: seq<FileRecord>, uid: nat): (rs: seq<FileRecord>)
    ensures NewestFirst(rs)
    ensures forall f :: f in rs <==> f in files && f.owner == uid
    ensures |rs| == |Owned(files, uid)|
    ensures multiset(rs) == multiset(Owned(files, uid))
  {
    var owned := Owned(files, uid);
    var rs := SortNewestFirst(owned);
    assert forall f :: f in rs <==> f in multiset(owned);
    assert |rs| == |multiset(rs)|;
    rs
  }

  /**
   * GET /api/history: the current user's rows, newest first, as JSON
   * entries. Rows of other users never appear; an anonymous visitor is
   * redirected to the login view.
   */
  function History(st: Store, session: Option<nat>): (r: Reply)
    ensures r.code == 302 <==> CurrentUser(st, session).None?
    ensures CurrentUser(st, session).None? ==> r == Unauthorized()
    ensures r.code != 302 ==> r.code == 200 && r.body.HistoryList?
    ensures r.code == 200 ==>
      var items := r.body.items;
      && (forall i, j :: 0 <= i < j < |items| ==> items[i].date >= items[j].date)
      && (forall f :: f in st.files && Some(f.owner) == session ==> Entry(f) in items)
      && (forall e :: e in items ==> exists f :: f in st.files && Some(f.owner) == session && e == Entry(f))
      && |items| == |Owned(st.files, session.value)|
  {
    match CurrentUser(st, session)
    case None => Unauthorized()
    case Some(user) =>
      var rs := HistoryRows(st.files, user.id);
      EntriesNewestFirst(rs);
      EntriesMembership(rs);
      Reply(200, HistoryList(Entries(rs)))
  }

  // ----- delete_history_item ------------------------------------------------------

  /** `filter_by(id=file_id, user_id=uid).first()`, as a position. */
  function FindOwned(files: seq<FileRecord>, id: nat, uid: nat): (r: Option<nat>)
    ensures r.Some? ==> r.value < |files| && files[r.value].id == id && files[r.value].owner == uid
    ensures r.None? <==> forall f :: f in files ==> !(f.id == id && f.owner == uid)
  {
    if |files| == 0 then None
    else if files[0].id == id && files[0].owner == uid then Some(0)
    else
      assert forall f :: f in files ==> f == files[0] || f in files[1..];
      match FindOwned(files[1..], id, uid)
      case None => None
      case Some(k) => Some(k + 1)
  }

  /**
   * DELETE /api/history/<id>: removes the row only when both the id and
   * the owner match (200); otherwise 404 and nothing changes.
   */
  function Delete(st: Store, session: Option<nat>, fileId: nat): (r: Outcome)
    ensures r.reply.code == 302 <==> CurrentUser(st, session).None?
    ensures CurrentUser(st, session).None? ==> r.reply == Unauthorized()
    ensures r.reply.code == 404 <==>
      CurrentUser(st, session).Some?
      && forall f :: f in st.files ==> !(f.id == fileId && Some(f.owner) == session)
    ensures r.reply.code in {302, 404, 200}
    ensures r.reply.code != 200 ==> r.store == st
    ensures r.store.users == st.users
    ensures r.reply.code == 200 ==>
      exists k :: 0 <= k < |st.files| && st.files[k].id == fileId && Some(st.files[k].owner) == session
        && r.store.files == st.files[..k] + st.files[k + 1..]
    ensures forall f :: f in st.files && Some(f.owner) != session ==> f in r.store.files
  {
    match CurrentUser(st, session)
    case None => Outcome(st, Unauthorized())
    case Some(user) =>
      match FindOwned(st.files, fileId, user.id)
      case None => Outcome(st, Reply(404, Message("File not found or access denied")))
      case Some(k) =>
        var rest := st.files[..k] + st.files[k + 1..];
        assert forall f :: f in st.files && f.owner != user.id ==> f in rest by {
          forall f | f in st.files && f.owner != user.id ensures f in rest {
            var i :| 0 <= i < |st.files| && st.files[i] == f;
            if i < k { assert rest[i] == f; } else { assert rest[i - 1] == f; }
          }
        }
        Outcome(st.(files := rest), Reply(200, Message("File deleted successfully")))
  }

  /** Removing one row from a list with unique ids keeps them unique and drops that id. */
  lemma RemoveAtUnique(files: seq<FileRecord>, k: nat)
    requires UniqueFileIds(files) && k < |files|
    ensures UniqueFileIds(files[..k] + files[k + 1..])
    ensures forall f :: f in files[..k] + files[k + 1..] ==> f.id != files[k].id
  {
    var rest := files[..k] + files[k + 1..];
    assert forall i :: 0 <= i < |rest| ==> rest[i] == files[if i < k then i else i + 1];
  }

  /** Deleting keeps the store valid, and in a valid store no row with the deleted id remains. */
  lemma DeletePreservesValid(st: Store, session: Option<nat>, fileId: nat)
    requires Valid(st)
    ensures Valid(Delete(st, session, fileId).store)
    ensures Delete(st, session, fileId).reply.code == 200 ==>
      forall f :: f in Delete(st, session, fileId).store.files ==> f.id != fileId
  {
    var r := Delete(st, session, fileId);
    if r.reply.code == 200 {
      var k :| 0 <= k < |st.files| && st.files[k].id == fileId && Some(st.files[k].owner) == session
        && r.store.files == st.files[..k] + st.files[k + 1..];
      RemoveAtUnique(st.files, k);
    }
  }

  // ----- download_file / view_file ---------------------------------------------------

  /** The position of the first row, in store order, that `matches` selects. */
  function FirstIndex(files: seq<FileRecord>, matches: FileRecord -> bool): (r: Option<nat>)
    ensures r.Some? ==> r.value < |files| && matches(files[r.value])
    ensures r.Some? ==> forall j :: 0 <= j < r.value ==> !matches(files[j])
    ensures r.None? <==> forall i :: 0 <= i < |files| ==> !matches(files[i])
  {
    if |files| == 0 then None
    else if matches(files[0]) then Some(0)
    else
      match FirstIndex(files[1..], matches)
      case None => None
      case Some(k) => Some(k + 1)
  }

  /** The first row, in store order, that `matches` selects. */
  function FindFirst(files: seq<FileRecord>, matches: FileRecord -> bool): (r: Option<FileRecord>)
    ensures r.Some? ==> r.value in files && matches(r.value)
    ensures r.None? <==> forall f :: f in files ==> !matches(f)
  {
    match FirstIndex(files, matches)
    case None => None
    case Some(k) => Some(files[k])
  }

  /** Appending a row that matches, to rows none of which does, makes it the first match. */
  lemma FindFirstOfAppended(files: seq<FileRecord>, x: FileRecord, matches: FileRecord -> bool)
    requires forall f :: f in files ==> !matches(f)
    requires matches(x)
    ensures FindFirst(files + [x], matches) == Some(x)
  {
    var all := files + [x];
    assert all[|files|] == x;
    assert forall j :: 0 <= j < |files| ==> all[j] == files[j];
  }

  /** The path segment a `<string:...>` route accepts: non-empty, no '/'. */
  predicate RouteSegment(s: string)
  {
    s != "" && '/' !in s
  }

  /** `processed_filename LIKE base || '%'` as SQLite evaluates it; NULL never matches. */
  predicate LikeMatches(base: string, f: FileRecord)
  {
    f.storedName.Some? && Like(base + "%", f.storedName.value)
  }

  /** The intended test: the stored name literally begins with `base`. */
  predicate PrefixMatches(base: string, f: FileRecord)
  {
    f.storedName.Some? && IsPrefix(base, f.storedName.value)
  }

  /** The lookup as written, with SQL `LIKE`. */
  function FindByLike(files: seq<FileRecord>, base: string): (r: Option<FileRecord>)
    ensures r.Some? ==>
      r.value in files && r.value.storedName.Some? && Like(base + "%", r.value.storedName.value)
    ensures r.None? <==> forall f :: f in files ==> !LikeMatches(base, f)
  {
    FindFirst(files, f => LikeMatches(base, f))
  }

  /** The lookup corrected to a literal prefix test. */
  function FindByPrefix(files: seq<FileRecord>, base: string): (r: Option<FileRecord>)
    ensures r.Some? ==>
      r.value in files && r.value.storedName.Some? && IsPrefix(base, r.value.storedName.value)
    ensures r.None? <==> forall f :: f in files ==> !PrefixMatches(base, f)
  {
    FindFirst(files, f => PrefixMatches(base, f))
  }

  /**
   * `LIKE` lets the wildcard `%` select a row whose stored name does not
   * begin with the requested text; the corrected lookup refuses it.
   */
  lemma LikeLookupMatchesWildcard()
    ensures
      var f := FileRecord(1, 7, "cat.png", Some("0b5d.png"), Completed, 0);
      && FindByLike([f], "%") == Some(f)
      && !IsPrefix("%", "0b5d.png")
      && FindByPrefix([f], "%") == None
  {
    PercentMatchesAll("0b5d.png");
    assert "%" + "%" == "%%";
    assert Like("%%", "0b5d.png") by {
      assert "%%"[1..] == "%";
    }
    assert "0b5d.png"[..1] == "0";
  }

  /**
   * `LIKE` also ignores ASCII case: "0B5D" selects the row stored as
   * "0b5d.png"; the corrected lookup refuses it.
   */
  lemma LikeLookupIgnoresCase()
    ensures
      var f := FileRecord(1, 7, "cat.png", Some("0b5d.png"), Completed, 0);
      && FindByLike([f], "0B5D") == Some(f)
      && FindByPrefix([f], "0B5D") == None
  {
    var f := FileRecord(1, 7, "cat.png", Some("0b5d.png"), Completed, 0);
    assert NoWildcard("0B5D");
    LikePrefixPattern("0B5D", "0b5d.png");
    assert "0b5d.png"[..4] == "0b5d";
    assert FoldEq("0B5D", "0b5d");
    assert "0b5d.png"[..4] != "0B5D";
  }

  /**
   * For the ids the application hands out (lower-case, no wildcard) and
   * stored names whose matched stretch is lower-case, both lookups agree.
   */
  lemma {:induction false} LookupsAgreeOnPlainIds(files: seq<FileRecord>, base: string)
    requires NoWildcard(base) && NoUpper(base)
    requires forall f :: f in files && f.storedName.Some? && |base| <= |f.storedName.value| ==>
      NoUpper(f.storedName.value[..|base|])
    ensures FindByLike(files, base) == FindByPrefix(files, base)
  {
    if |files| > 0 {
      var f := files[0];
      if f.storedName.Some? {
        var s := f.storedName.value;
        LikePrefixPattern(base, s);
        if |base| <= |s| && FoldEq(base, s[..|base|]) {
          forall i | 0 <= i < |base| ensures base[i] == s[i] {
            assert !IsUpperAscii(s[..|base|][i]);
          }
          assert s[..|base|] == base;
        }
      }
      assert forall g :: g in files[1..] ==> g in files;
      LookupsAgreeOnPlainIds(files[1..], base);
    }
  }

  /** What `download_file` answers once the lookup is done. */
  function ServeDownload(found: Option<FileRecord>): (r: Reply)
    ensures r.code == 404 <==> found.None?
    ensures r.code == 409 <==> found.Some? && found.value.status != Completed
    ensures r.code in {404, 409, 200}
    ensures r.code == 409 ==>
      r.body == Message("File is still " + Lower(StatusName(found.value.status)) + ".")
    ensures r.code == 200 ==>
      r.body == Attachment(found.value.storedName.GetOr(""), "upscaled_" + found.value.originalName)
  {
    match found
    case None => Reply(404, Message("File not found."))
    case Some(f) =>
      if f.status != Completed then
        Reply(409, Message("File is still " + Lower(StatusName(f.status)) + "."))
      else
        Reply(200, Attachment(f.storedName.GetOr(""), "upscaled_" + f.originalName))
  }

  /** What `view_file` answers once the lookup is done: no status check. */
  function ServeView(found: Option<FileRecord>): (r: Reply)
    ensures r.code == 404 <==> found.None?
    ensures r.code in {404, 200}
    ensures r.code == 200 ==> r.body == Inline(found.value.storedName.GetOr(""))
  {
    match found
    case None => Reply(404, Message("File not found."))
    case Some(f) => Reply(200, Inline(f.storedName.GetOr("")))
  }

  /**
   * GET /api/download/<base> as written (SQL `LIKE` lookup): 404 when no
   * stored name matches `base || '%'`, 409 when the first match is not
   * COMPLETED, otherwise that row's attachment.
   */
  function DownloadAsWritten(st: Store, base: string): (r: Reply)
    requires RouteSegment(base)
    ensures r.code == 404 <==> forall f :: f in st.files ==> !LikeMatches(base, f)
    ensures r.code == 409 ==>
      exists f :: f in st.files && LikeMatches(base, f) && f.status != Completed
        && r.body == Message("File is still " + Lower(StatusName(f.status)) + ".")
    ensures r.code == 200 ==>
      exists f :: f in st.files && LikeMatches(base, f) && f.status == Completed
        && r.body == Attachment(f.storedName.value, "upscaled_" + f.originalName)
    ensures r.code in {404, 409, 200}
  {
    ServeDownload(FindByLike(st.files, base))
  }

  /** GET /api/view/<base> as written (SQL `LIKE` lookup), with no status check. */
  function ViewAsWritten(st: Store, base: string): (r: Reply)
    requires RouteSegment(base)
    ensures r.code == 404 <==> forall f :: f in st.files ==> !LikeMatches(base, f)
    ensures r.code == 200 ==>
      exists f :: f in st.files && LikeMatches(base, f) && r.body == Inline(f.storedName.value)
    ensures r.code in {404, 200}
  {
    ServeView(FindByLike(st.files, base))
  }

  /**
   * The corrected lookup still reads the base as a prefix: "0" selects
   * the row stored as "0b5d.png". Only the wildcard and case readings
   * are corrected.
   */
  lemma PrefixLookupAcceptsShortBase()
    ensures
      var f := FileRecord(1, 7, "cat.png", Some("0b5d.png"), Completed, 0);
      FindByPrefix([f], "0") == Some(f)
  {
    assert "0b5d.png"[..1] == "0";
  }

  /**
   * GET /api/view/% as written serves another user's original although no
   * stored name begins with "%".
   */
  lemma ViewAsWrittenServesAnyone()
    ensures
      var st := Store([], [FileRecord(1, 7, "cat.png", Some("0b5d.png"), Pending, 0)]);
      && ViewAsWritten(st, "%") == Reply(200, Inline("0b5d.png"))
      && View(st, "%").code == 404
  {
    LikeLookupMatchesWildcard();
  }

  /**
   * GET /api/download/<base>, corrected lookup: 404 when no stored name
   * begins with `base`, 409 when the first such row is not COMPLETED,
   * otherwise the attachment named "upscaled_" + the original filename.
   * No login is required.
   */
  function Download(st: Store, base: string): (r: Reply)
    requires RouteSegment(base)
    ensures r.code == 404 <==> forall f :: f in st.files ==> !PrefixMatches(base, f)
    ensures r.code == 409 ==>
      exists f :: f in st.files && PrefixMatches(base, f) && f.status != Completed
        && r.body == Message("File is still " + Lower(StatusName(f.status)) + ".")
    ensures r.code == 200 ==>
      exists f :: f in st.files && PrefixMatches(base, f) && f.status == Completed
        && r.body == Attachment(f.storedName.value, "upscaled_" + f.originalName)
    ensures r.code in {404, 409, 200}
  {
    ServeDownload(FindByPrefix(st.files, base))
  }

  /** GET /api/view/<base>, corrected lookup: as `Download` without the status check. */
  function View(st: Store, base: string): (r: Reply)
    requires RouteSegment(base)
    ensures r.code == 404 <==> forall f :: f in st.files ==> !PrefixMatches(base, f)
    ensures r.code == 200 ==>
      exists f :: f in st.files && PrefixMatches(base, f) && r.body == Inline(f.storedName.value)
    ensures r.code in {404, 200}
  {
    ServeView(FindByPrefix(st.files, base))
  }
}

=== FILE: history_view.dfy ===
/**
 * The history list of Frontend/src/Pages/History.jsx: its state, the
 * result of `fetchHistory`, confirm-then-delete (`handleDelete`), the
 * preview/download links and the status-gated card footer.
 */
module HistoryView {
  import opened Wrappers
  import opened Text
  import opened Http

  /** One card's data as the server sent it; `uniqueId` may be JSON null. */
  datatype Item = Item(id: int, uniqueId: Option<string>, originalFilename: string, status: string, date: int)

  datatype HistoryState = HistoryState(items: seq<Item>, loading: bool, error: Option<string>)

  const LoginPrompt: string := "Please log in to view your history."
  const LoadFailure: string := "Could not load history. Is the server running?"

  /** `useState([])`, `useState(true)`, `useState(null)`. */
  function Initial(): (s: HistoryState)
    ensures s.items == [] && s.loading && s.error.None?
  {
    HistoryState([], true, None)
  }

  /**
   * `fetchHistory` resolving: a 401 sets the login prompt, any other
   * error or failure sets the generic message, both keeping the list; an
   * ok reply replaces the list wholesale in server order. Loading ends in
   * every case.
   */
  function ApplyFetch(s: HistoryState, resp: Response<seq<Item>>): (r: HistoryState)
    ensures !r.loading
    ensures resp.Ok? ==> r.items == resp.body && r.error == s.error
    ensures !resp.Ok? ==> r.items == s.items
    ensures resp.HttpError? && resp.code == 401 ==> r.error == Some(LoginPrompt)
    ensures (resp.HttpError? && resp.code != 401) || resp.TransportOrParseFailure? ==>
      r.error == Some(LoadFailure)
  {
    match resp
    case Ok(items) => s.(items := items, loading := false)
    case HttpError(code, _) =>
      if code == 401 then s.(error := Some(LoginPrompt), loading := false)
      else s.(error := Some(LoadFailure), loading := false)
    case TransportOrParseFailure => s.(error := Some(LoadFailure), loading := false)
  }

  /** A 401 on the first load shows the prompt, never the generic error, over an empty list. */
  lemma FirstLoadUnauthorized(body: seq<Item>)
    ensures
      var r := ApplyFetch(Initial(), HttpError(401, body));
      r.items == [] && r.error == Some(LoginPrompt) && r.error != Some(LoadFailure) && !r.loading
  {
  }

  /** `prev.filter(item => item.id !== fileId)`. */
  function RemoveId(items: seq<Item>, id: int): (r: seq<Item>)
    ensures |r| <= |items|
    ensures forall x :: x in r <==> x in items && x.id != id
  {
    if |items| == 0 then []
    else
      assert forall x :: x in items ==> x == items[0] || x in items[1..];
      if items[0].id != id then [items[0]] + RemoveId(items[1..], id) else RemoveId(items[1..], id)
  }

  /** Filtering distributes over concatenation, so the kept items stay in order. */
  lemma {:induction false} RemoveIdOfConcat(a: seq<Item>, b: seq<Item>, id: int)
    ensures RemoveId(a + b, id) == RemoveId(a, id) + RemoveId(b, id)
  {
    if |a| > 0 {
      var ab := a + b;
      assert ab[0] == a[0];
      assert ab[1..] == a[1..] + b;
      RemoveIdOfConcat(a[1..], b, id);
      var rest := RemoveId(a[1..], id) + RemoveId(b, id);
      if a[0].id != id {
        assert RemoveId(ab, id) == [a[0]] + rest;
        assert RemoveId(a, id) == [a[0]] + RemoveId(a[1..], id);
        assert [a[0]] + rest == ([a[0]] + RemoveId(a[1..], id)) + RemoveId(b, id);
      } else {
        assert RemoveId(ab, id) == rest;
        assert RemoveId(a, id) == RemoveId(a[1..], id);
      }
    } else {
      assert a + b == b;
    }
  }

  /** Removing an id no item carries changes nothing. */
  lemma {:induction false} RemoveAbsentId(items: seq<Item>, id: int)
    requires forall x :: x in items ==> x.id != id
    ensures RemoveId(items, id) == items
  {
    if |items| > 0 {
      assert forall x :: x in items[1..] ==> x in items;
      RemoveAbsentId(items[1..], id);
    }
  }

  predicate UniqueIds(items: seq<Item>)
  {
    forall i, j :: 0 <= i < j < |items| ==> items[i].id != items[j].id
  }

  /**
   * With unique ids, removing the id at position `k` leaves the items
   * before and after it, in order: exactly one item fewer.
   */
  lemma {:induction false} RemovePresentId(items: seq<Item>, k: nat)
    requires UniqueIds(items) && k < |items|
    ensures RemoveId(items, items[k].id) == items[..k] + items[k + 1..]
    ensures |RemoveId(items, items[k].id)| == |items| - 1
  {
    var id := items[k].id;
    var tail := items[1..];
    assert UniqueIds(tail) by {
      forall i, j | 0 <= i < j < |tail| ensures tail[i].id != tail[j].id {
        assert tail[i] == items[i + 1] && tail[j] == items[j + 1];
      }
    }
    if k == 0 {
      forall x | x in tail ensures x.id != id {
        var i :| 0 <= i < |tail| && tail[i] == x;
        assert items[i + 1] == x;
      }
      RemoveAbsentId(tail, id);
    } else {
      assert items[0].id != id;
      assert tail[k - 1] == items[k];
      RemovePresentId(tail, k - 1);
      assert [items[0]] + (tail[..k - 1] + tail[k..]) == items[..k] + items[k + 1..];
    }
  }

  /**
   * `window.confirm` gates the request: declined means nothing is sent.
   * The request is a DELETE of /api/history/<id>, so the id returned
   * determines it.
   */
  function DeleteRequest(id: int, confirmed: bool): (r: Option<int>)
    ensures r.Some? <==> confirmed
    ensures r.Some? ==> r.value == id
  {
    if confirmed then Some(id) else None
  }

  /** The state after a delete resolves, and the alert it raises, if any. */
  datatype DeleteOutcome = DeleteOutcome(state: HistoryState, alert: Option<string>)

  /**
   * `handleDelete` resolving: an ok reply drops every item with that id;
   * an error status or a failure leaves the list and raises an alert.
   */
  function ApplyDelete(s: HistoryState, id: int, resp: Response<()>): (r: DeleteOutcome)
    ensures r.state.loading == s.loading && r.state.error == s.error
    ensures resp.Ok? ==> r.alert.None? && forall x :: x in r.state.items <==> x in s.items && x.id != id
    ensures !resp.Ok? ==> r.state == s
    ensures resp.HttpError? ==> r.alert == Some("Failed to delete the file.")
    ensures resp.TransportOrParseFailure? ==> r.alert == Some("Error occurred while deleting.")
  {
    match resp
    case Ok(_) => DeleteOutcome(s.(items := RemoveId(s.items, id)), None)
    case HttpError(_, _) => DeleteOutcome(s, Some("Failed to delete the file."))
    case TransportOrParseFailure => DeleteOutcome(s, Some("Error occurred while deleting."))
  }

  /**
   * Deleting the item at position `k` of a list with unique ids: after an
   * ok reply the list is one shorter with that item gone and the rest in
   * order; otherwise it is unchanged in length and membership.
   */
  lemma DeleteOneItem(s: HistoryState, k: nat, resp: Response<()>)
    requires UniqueIds(s.items) && k < |s.items|
    ensures
      var r := ApplyDelete(s, s.items[k].id, resp);
      && (resp.Ok? ==> r.state.items == s.items[..k] + s.items[k + 1..]
                       && |r.state.items| == |s.items| - 1
                       && forall x :: x in r.state.items ==> x.id != s.items[k].id)
      && (!resp.Ok? ==> r.state.items == s.items)
  {
    RemovePresentId(s.items, k);
  }

  /** JavaScript's `${v}` for an id that may be null. */
  function RenderId(v: Option<string>): (r: string)
    ensures v.Some? ==> r == v.value
    ensures v.None? ==> r == "null"
  {
    v.GetOr("null")
  }

  const DownloadBase: string := Origin + "/api/download/"
  const PreviewBase: string := Origin + "/api/view/"

  /** `getDownloadLink`. */
  function DownloadLink(uniqueId: Option<string>): (u: string)
    ensures IsPrefix(DownloadBase, u) && u[|DownloadBase|..] == RenderId(uniqueId)
  {
    PrefixOfConcat(DownloadBase, RenderId(uniqueId));
    DownloadBase + RenderId(uniqueId)
  }

  /** `getPreviewLink`. */
  function PreviewLink(uniqueId: Option<string>): (u: string)
    ensures IsPrefix(PreviewBase, u) && u[|PreviewBase|..] == RenderId(uniqueId)
  {
    PrefixOfConcat(PreviewBase, RenderId(uniqueId));
    PreviewBase + RenderId(uniqueId)
  }

  /** The card footer's status affordance. */
  datatype Footer = DownloadButton(url: string) | DisabledFailed | DisabledProcessing

  /**
   * Only the exact text "COMPLETED" offers the download link; the exact
   * text "FAILED" shows the disabled Failed button; anything else,
   * including other spellings of those words, shows Processing.
   */
  function FooterFor(item: Item): (f: Footer)
    ensures f.DownloadButton? <==> item.status == "COMPLETED"
    ensures f.DownloadButton? ==> f.url == DownloadLink(item.uniqueId)
    ensures f.DisabledFailed? <==> item.status == "FAILED"
    ensures f.DisabledProcessing? <==> item.status != "COMPLETED" && item.status != "FAILED"
  {
    if item.status == "COMPLETED" then DownloadButton(DownloadLink(item.uniqueId))
    else if item.status == "FAILED" then DisabledFailed
    else DisabledProcessing
  }

  /** Status matching is exact: lower-case spellings never get a download link. */
  lemma FooterIsCaseSensitive(item: Item)
    requires item.status == "completed" || item.status == "failed"
    ensures FooterFor(item) == DisabledProcessing
  {
  }

  /** Which blocks of the panel render. */
  datatype Panel = Panel(loadingText: bool, errorText: Option<string>, emptyText: bool, grid: bool)

  function PanelFor(s: HistoryState): (p: Panel)
    ensures p.errorText == s.error
    ensures p.grid <==> !s.loading && s.error.None? && |s.items| > 0
    ensures p.emptyText <==> !s.loading && s.error.None? && |s.items| == 0
    ensures !(p.grid && p.emptyText)
  {
    Panel(s.loading, s.error, !s.loading && s.error.None? && |s.items| == 0,
          !s.loading && s.error.None? && |s.items| > 0)
  }

  /** Once an error is shown, no grid is rendered, even after a later successful load. */
  lemma ErrorHidesGrid(s: HistoryState, items: seq<Item>)
    requires s.error.Some?
    ensures !PanelFor(s).grid
    ensures !PanelFor(ApplyFetch(s, Ok(items))).grid
  {
  }
}

=== FILE: http.dfy ===
/**
 * How a client controller sees one `fetch` round trip: a response whose
 * `ok` flag is set, an HTTP error status with its parsed body, or a
 * failure to reach the server or to parse the body (`fetch` rejecting or
 * `response.json()` throwing).
 */
module Http {

  datatype Response<B> = Ok(body: B) | HttpError(code: nat, body: B) | TransportOrParseFailure

  /** The backend origin every controller calls. */
  const Origin: string := "http://127.0.0.1:5000"

  /** The methods the controllers send. */
  datatype Method = GET | POST | DELETE

  /**
   * The method `fetch` re-sends with when it follows a 301 or 302
   * (section 4.4, HTTP-redirect fetch, of the Fetch standard): a POST
   * becomes a GET, every other method is kept.
   */
  function RedirectMethod(m: Method): (r: Method)
    ensures r != POST
    ensures m == POST ==> r == GET
    ensures m != POST ==> r == m
  {
    if m == POST then GET else m
  }

  /** `response.ok`: a status in the 2xx range. */
  predicate IsOkStatus(code: nat)
  {
    200 <= code < 300
  }
}

=== FILE: login_form.dfy ===
/**
 * The login/registration popup of Frontend/src/Pages/Login.jsx
 * (`LoginPopup`): its form state, `handleSubmit` split into the request
 * it issues and the transition applied when the request resolves, the
 * reset applied when the popup closes, and the mode toggle.
 */
module LoginForm {
  import opened Wrappers
  import opened Text
  import opened Http

  datatype Form = Form(
    registering: bool,
    email: string,
    username: string,
    password: string,
    submitting: bool,
    message: string)

  /** The `useState` defaults: a form the browser would not submit yet, with the button enabled. */
  function Initial(): (f: Form)
    ensures !f.registering && f.message == ""
    ensures f.email == "" && f.username == "" && f.password == "" && !f.submitting
    ensures SubmitEnabled(f) && !RequiredFieldsFilled(f)
  {
    Form(false, "", "", "", false, "")
  }

  /** The JSON body sent: `username` only when registering. */
  datatype Credentials =
    | LoginCredentials(email: string, password: string)
    | RegisterCredentials(email: string, username: string, password: string)

  /** One POST issued by `handleSubmit`. */
  datatype AuthRequest = AuthRequest(url: string, creds: Credentials)

  /** The JSON body of the reply; either field may be absent. */
  datatype AuthBody = AuthBody(message: Option<string>, username: Option<string>)

  /** The popup's effects beyond its own state. */
  datatype Effects = Effects(form: Form, setUser: Option<string>, closeScheduled: bool)

  const RegisterPath: string := "/api/register"
  const LoginPath: string := "/api/login"

  /** The submit button is disabled while a request is outstanding. */
  predicate SubmitEnabled(f: Form)
  {
    !f.submitting
  }

  /**
   * The browser's `required` attributes: email and password always, and
   * the username input, which exists only in register mode.
   */
  predicate RequiredFieldsFilled(f: Form)
  {
    f.email != "" && f.password != "" && (f.registering ==> f.username != "")
  }

  /**
   * `handleSubmit` up to the `fetch`: marks the form submitting and builds
   * the request for the current mode.
   */
  function Submit(f: Form): (r: (Form, AuthRequest))
    ensures r.0 == f.(submitting := true, message := "Processing...")
    ensures r.1.url == Origin + (if f.registering then RegisterPath else LoginPath)
    ensures r.1.creds.RegisterCredentials? <==> f.registering
    ensures r.1.creds.email == f.email && r.1.creds.password == f.password
    ensures f.registering ==> r.1.creds.username == f.username
  {
    var creds :=
      if f.registering then RegisterCredentials(f.email, f.username, f.password)
      else LoginCredentials(f.email, f.password);
    var path := if f.registering then RegisterPath else LoginPath;
    (f.(submitting := true, message := "Processing..."), AuthRequest(Origin + path, creds))
  }

  /**
   * The rest of `handleSubmit`, once the request resolves. The branch
   * follows the mode captured when the request was sent. A login success
   * sets the user to the returned username (or "User") and schedules the
   * close; a registration success switches to login mode and clears only
   * the password; an error status or a failure only sets the message.
   */
  function Resolve(f: Form, req: AuthRequest, resp: Response<AuthBody>): (r: Effects)
    ensures !r.form.submitting
    ensures r.form.email == f.email && r.form.username == f.username
    ensures r.setUser.Some? <==> resp.Ok? && req.creds.LoginCredentials?
    ensures r.setUser.Some? ==> r.setUser.value == OrElse(resp.body.username, "User")
    ensures r.closeScheduled <==> r.setUser.Some?
    ensures resp.Ok? && req.creds.LoginCredentials? ==>
      r.form == f.(submitting := false, message := "Success: " + Interpolate(resp.body.message))
    ensures resp.Ok? && req.creds.RegisterCredentials? ==>
      r.form == f.(registering := false, password := "", submitting := false,
                   message := "Account created! Please log in.")
    ensures resp.HttpError? ==>
      r.form == f.(submitting := false, message := "Error: " + Interpolate(resp.body.message))
    ensures resp.TransportOrParseFailure? ==>
      r.form == f.(submitting := false, message := "Network error. Is Backend running?")
  {
    match resp
    case Ok(body) =>
      if req.creds.RegisterCredentials? then
        Effects(f.(registering := false, password := "", submitting := false,
                   message := "Account created! Please log in."), None, false)
      else
        Effects(f.(submitting := false, message := "Success: " + Interpolate(body.message)),
                Some(OrElse(body.username, "User")), true)
    case HttpError(_, body) =>
      Effects(f.(submitting := false, message := "Error: " + Interpolate(body.message)), None, false)
    case TransportOrParseFailure =>
      Effects(f.(submitting := false, message := "Network error. Is Backend running?"), None, false)
  }

  /** The effect run when the popup is closed: message, mode and fields reset. */
  function Close(f: Form): (r: Form)
    ensures r.message == "" && !r.registering
    ensures r.email == "" && r.password == "" && r.username == ""
    ensures r.submitting == f.submitting
  {
    f.(message := "", registering := false, email := "", password := "", username := "")
  }

  /** The "Create one / Login here" button. */
  function Toggle(f: Form): (r: Form)
    ensures r.registering == !f.registering && r.message == ""
    ensures r.email == f.email && r.username == f.username && r.password == f.password
    ensures r.submitting == f.submitting
  {
    f.(registering := !f.registering, message := "")
  }

  /** Closing twice is closing once, and a closed form is the initial form up to `submitting`. */
  lemma CloseIdempotent(f: Form)
    ensures Close(Close(f)) == Close(f)
    ensures Close(f) == Initial().(submitting := f.submitting)
  {
  }

  /** Toggling twice restores the mode and leaves the message cleared. */
  lemma ToggleTwice(f: Form)
    ensures Toggle(Toggle(f)) == f.(message := "")
  {
  }

  /**
   * A submit followed by its resolution never leaves the form submitting,
   * and a non-ok outcome keeps the mode the form had.
   */
  lemma SubmitResolveCycle(f: Form, resp: Response<AuthBody>)
    ensures
      var (sent, req) := Submit(f);
      var r := Resolve(sent, req, resp);
      && !r.form.submitting
      && SubmitEnabled(r.form)
      && (!resp.Ok? ==> r.form.registering == f.registering && r.setUser.None?)
  {
  }

  /**
   * After a successful registration the popup is in login mode with an
   * empty password, so the browser refuses the next submit until the
   * password is typed again.
   */
  lemma RegistrationNeedsPasswordAgain(f: Form, body: AuthBody)
    requires f.registering
    ensures
      var (sent, req) := Submit(f);
      var r := Resolve(sent, req, Ok(body));
      && !r.form.registering
      && r.setUser.None?
      && !RequiredFieldsFilled(r.form)
      && Submit(r.form).1.url == Origin + LoginPath
  {
  }
}

=== FILE: session.dfy ===
/**
 * The session state of Frontend/src/App.jsx: the `user` value, set by the
 * authentication probe that runs once at mount and by the login popup,
 * which receives the same setter. No probe or login outcome clears the
 * user; the navigation bar also receives the setter, and what it does
 * with it is not part of this model.
 */
module Session {
  import opened Wrappers
  import opened Http

  /** The JSON the probe reads; `authenticated` stands for its truthiness. */
  datatype ProbeBody = ProbeBody(authenticated: bool, username: Option<string>, id: Option<int>)

  /** What `user` holds: the whole probe object, or `{username}` from a login. */
  datatype UserValue = ProbeUser(probe: ProbeBody) | LoginUser(username: string)

  datatype Session = Session(user: Option<UserValue>)

  const ProbeUrl: string := Origin + "/api/check-auth"

  /** `useState(null)`. */
  function Initial(): (s: Session)
    ensures s.user.None?
  {
    Session(None)
  }

  /** The probe looks at the parsed body whatever the status code. */
  predicate ProbeSaysAuthenticated(resp: Response<ProbeBody>)
  {
    !resp.TransportOrParseFailure? && resp.body.authenticated
  }

  /**
   * `checkAuth` resolving: a truthy `authenticated` stores the whole
   * response object; anything else, including a failure, which is only
   * logged, leaves the session as it was.
   */
  function ApplyProbe(s: Session, resp: Response<ProbeBody>): (r: Session)
    ensures ProbeSaysAuthenticated(resp) ==> r.user == Some(ProbeUser(resp.body))
    ensures !ProbeSaysAuthenticated(resp) ==> r == s
  {
    match resp
    case TransportOrParseFailure => s
    case Ok(b) => if b.authenticated then Session(Some(ProbeUser(b))) else s
    case HttpError(_, b) => if b.authenticated then Session(Some(ProbeUser(b))) else s
  }

  /** The login popup calling `setUser({username})`. */
  function ApplyLogin(s: Session, username: string): (r: Session)
    ensures r.user == Some(LoginUser(username))
  {
    Session(Some(LoginUser(username)))
  }

  /** The events that reach the session state. */
  datatype Event = ProbeResolved(resp: Response<ProbeBody>) | LoginSucceeded(username: string)

  function Step(s: Session, ev: Event): Session
  {
    match ev
    case ProbeResolved(resp) => ApplyProbe(s, resp)
    case LoginSucceeded(name) => ApplyLogin(s, name)
  }

  function Run(s: Session, evs: seq<Event>): Session
    decreases |evs|
  {
    if |evs| == 0 then s else Run(Step(s, evs[0]), evs[1..])
  }

  /** An event that sets the user. */
  predicate SetsUser(ev: Event)
  {
    ev.LoginSucceeded? || ProbeSaysAuthenticated(ev.resp)
  }

  /** Once a user is stored, no sequence of probe and login events clears it. */
  lemma {:induction false} NeverLoggedOut(s: Session, evs: seq<Event>)
    requires s.user.Some?
    ensures Run(s, evs).user.Some?
    decreases |evs|
  {
    if |evs| > 0 {
      NeverLoggedOut(Step(s, evs[0]), evs[1..]);
    }
  }

  /**
   * Starting from a session, the user is set after a run exactly when it
   * was set before or some event of the run sets it.
   */
  lemma {:induction false} UserSetIff(s: Session, evs: seq<Event>)
    ensures Run(s, evs).user.Some? <==> s.user.Some? || exists i :: 0 <= i < |evs| && SetsUser(evs[i])
    decreases |evs|
  {
    if |evs| > 0 {
      UserSetIff(Step(s, evs[0]), evs[1..]);
      if exists i :: 0 <= i < |evs[1..]| && SetsUser(evs[1..][i]) {
        var i :| 0 <= i < |evs[1..]| && SetsUser(evs[1..][i]);
        assert SetsUser(evs[i + 1]);
      }
      if i :| 0 <= i < |evs| && SetsUser(evs[i]) {
        if i > 0 {
          assert SetsUser(evs[1..][i - 1]);
        }
      }
    }
  }

  /** From the initial session the user stays null until some event sets it. */
  lemma InitialUserSetIff(evs: seq<Event>)
    ensures Run(Initial(), evs).user.Some? <==> exists i :: 0 <= i < |evs| && SetsUser(evs[i])
  {
    UserSetIff(Initial(), evs);
  }

  /** A successful login overwrites whatever the probe stored. */
  lemma {:induction false} LoginOverridesProbe(s: Session, evs: seq<Event>, name: string)
    ensures Run(s, evs + [LoginSucceeded(name)]).user == Some(LoginUser(name))
    decreases |evs|
  {
    if |evs| == 0 {
      assert evs + [LoginSucceeded(name)] == [LoginSucceeded(name)];
    } else {
      assert (evs + [LoginSucceeded(name)])[1..] == evs[1..] + [LoginSucceeded(name)];
      LoginOverridesProbe(Step(s, evs[0]), evs[1..], name);
    }
  }
}

=== FILE: sqlite_like.dfy ===
/**
 * The SQL `LIKE` operator as SQLite evaluates it by default (no ESCAPE
 * clause, `case_sensitive_like` off): `%` matches any run of characters,
 * `_` matches exactly one character, and every other pattern character
 * matches the same character up to ASCII case.
 */
module SqlLike {
  import opened Text

  /** `p` and `s` agree character by character up to ASCII case. */
  predicate FoldEq(p: string, s: string)
  {
    |p| == |s| && forall i :: 0 <= i < |p| ==> LowerChar(p[i]) == LowerChar(s[i])
  }

  predicate IsWildcard(c: char)
  {
    c == '%' || c == '_'
  }

  predicate NoWildcard(p: string)
  {
    forall i :: 0 <= i < |p| ==> !IsWildcard(p[i])
  }

  /** `s LIKE p`. */
  function Like(p: string, s: string): bool
    decreases |p| + |s|
  {
    if |p| == 0 then |s| == 0
    else if p[0] == '%' then Like(p[1..], s) || (|s| > 0 && Like(p, s[1..]))
    else |s| > 0 && (p[0] == '_' || LowerChar(p[0]) == LowerChar(s[0])) && Like(p[1..], s[1..])
  }

  /** A lone `%` matches every string. */
  lemma {:induction false} PercentMatchesAll(s: string)
    ensures Like("%", s)
  {
    if |s| > 0 {
      PercentMatchesAll(s[1..]);
    }
  }

  /**
   * `s LIKE (b || '%')` for a pattern text `b` free of wildcards holds
   * exactly when `s` begins with `b` up to ASCII case.
   */
  lemma {:induction false} LikePrefixPattern(b: string, s: string)
    requires NoWildcard(b)
    ensures Like(b + "%", s) <==> |b| <= |s| && FoldEq(b, s[..|b|])
  {
    if |b| == 0 {
      assert b + "%" == "%";
      PercentMatchesAll(s);
    } else {
      assert (b + "%")[0] == b[0];
      assert (b + "%")[1..] == b[1..] + "%";
      assert !IsWildcard(b[0]);
      if |s| > 0 {
        assert NoWildcard(b[1..]) by {
          forall i | 0 <= i < |b[1..]| ensures !IsWildcard(b[1..][i]) {
            assert b[1..][i] == b[i + 1];
          }
        }
        LikePrefixPattern(b[1..], s[1..]);
        if |b| <= |s| {
          FoldEqCons(b, s[..|b|]);
          assert s[..|b|][1..] == s[1..][..|b| - 1];
        }
      }
    }
  }

  /** Folding equality splits into the head and the tail. */
  lemma FoldEqCons(p: string, s: string)
    requires |p| == |s| > 0
    ensures FoldEq(p, s) <==> LowerChar(p[0]) == LowerChar(s[0]) && FoldEq(p[1..], s[1..])
  {
    if LowerChar(p[0]) == LowerChar(s[0]) && FoldEq(p[1..], s[1..]) {
      forall i | 0 <= i < |p| ensures LowerChar(p[i]) == LowerChar(s[i]) {
        if i > 0 {
          assert p[i] == p[1..][i - 1] && s[i] == s[1..][i - 1];
        }
      }
    }
  }

  /** A wildcard-free literal prefix of `s`, followed by `%`, matches `s`. */
  lemma LikeOfLiteralPrefix(b: string, s: string)
    requires NoWildcard(b) && IsPrefix(b, s)
    ensures Like(b + "%", s)
  {
    LikePrefixPattern(b, s);
    assert FoldEq(b, s[..|b|]);
  }
}

=== FILE: text.dfy ===
/**
 * String helpers shared by the backend and the client models: ASCII case
 * mapping, prefix tests and the Python/JavaScript string operations the
 * source relies on (`split`, `rsplit`, `rfind`, `x || fallback`).
 */
module Text {
  import opened Wrappers

  /** ASCII lower-casing of one character; other characters are unchanged. */
  function LowerChar(c: char): char
  {
    if 'A' <= c <= 'Z' then (c as int + 32) as char else c
  }

  /** ASCII upper-casing of one character; other characters are unchanged. */
  function UpperChar(c: char): char
  {
    if 'a' <= c <= 'z' then (c as int - 32) as char else c
  }

  function Lower(s: string): (r: string)
    ensures |r| == |s|
    ensures forall i :: 0 <= i < |s| ==> r[i] == LowerChar(s[i])
  {
    if |s| == 0 then "" else [LowerChar(s[0])] + Lower(s[1..])
  }

  function Upper(s: string): (r: string)
    ensures |r| == |s|
    ensures forall i :: 0 <= i < |s| ==> r[i] == UpperChar(s[i])
  {
    if |s| == 0 then "" else [UpperChar(s[0])] + Upper(s[1..])
  }

  predicate IsUpperAscii(c: char)
  {
    'A' <= c <= 'Z'
  }

  /** No character of `s` is an upper-case ASCII letter. */
  predicate NoUpper(s: string)
  {
    forall i :: 0 <= i < |s| ==> !IsUpperAscii(s[i])
  }

  predicate IsPrefix(p: string, s: string)
  {
    |p| <= |s| && s[..|p|] == p
  }

  predicate IsSuffix(p: string, s: string)
  {
    |p| <= |s| && s[|s| - |p|..] == p
  }

  /** Position of the first `c` in `s` (Python `str.find`, as an option). */
  function IndexOf(s: string, c: char): (r: Option<nat>)
    ensures r.Some? ==> r.value < |s| && s[r.value] == c && c !in s[..r.value]
    ensures r.None? ==> c !in s
  {
    if |s| == 0 then None
    else if s[0] == c then Some(0)
    else match IndexOf(s[1..], c)
      case None => None
      case Some(k) => assert s[..k + 1] == [s[0]] + s[1..][..k]; Some(k + 1)
  }

  /** Position of the last `c` in `s` (Python `str.rfind`, as an option). */
  function LastIndexOf(s: string, c: char): (r: Option<nat>)
    ensures r.Some? ==> r.value < |s| && s[r.value] == c && c !in s[r.value + 1..]
    ensures r.None? ==> c !in s
  {
    if |s| == 0 then None
    else if s[|s| - 1] == c then Some(|s| - 1)
    else match LastIndexOf(s[..|s| - 1], c)
      case None => None
      case Some(k) =>
        assert s[k + 1..] == s[..|s| - 1][k + 1..] + [s[|s| - 1]];
        Some(k)
  }

  /**
   * Python `s.split(c)[0]`: the text before the first `c`, or all of `s`
   * when there is none.
   */
  function BeforeFirst(s: string, c: char): (r: string)
    ensures IsPrefix(r, s)
    ensures c !in r
    ensures |r| < |s| ==> s[|r|] == c
  {
    match IndexOf(s, c)
    case None => s
    case Some(k) => s[..k]
  }

  /**
   * Python `s.rsplit(c, 1)[1]`, defined when `c` occurs in `s`: the text
   * after the last `c`.
   */
  function AfterLast(s: string, c: char): (r: string)
    requires c in s
    ensures IsSuffix(r, s)
    ensures |r| < |s| && s[|s| - |r| - 1] == c
    ensures c !in r
  {
    var k := LastIndexOf(s, c).value;
    s[k + 1..]
  }

  /**
   * The text JavaScript's template literal produces for an optional
   * string: the string itself, or "undefined" when it is absent.
   */
  function Interpolate(v: Option<string>): (r: string)
    ensures v.Some? ==> r == v.value
    ensures v.None? ==> r == "undefined"
  {
    v.GetOr("undefined")
  }

  /**
   * JavaScript `v || fallback` for an optional string: an absent or empty
   * string is falsy and yields the fallback.
   */
  function OrElse(v: Option<string>, fallback: string): (r: string)
    ensures v.Some? && v.value != "" ==> r == v.value
    ensures v.None? || v.value == "" ==> r == fallback
  {
    if v.Some? && v.value != "" then v.value else fallback
  }

  /** `a` is a prefix of `a + b`. */
  lemma {:induction false} PrefixOfConcat(a: string, b: string)
    ensures IsPrefix(a, a + b)
  {
    assert (a + b)[..|a|] == a;
  }

  /**
   * The text before the first `c` of `u + e` is `u` when `u` has no `c`
   * and `e` is empty or begins with `c`.
   */
  lemma {:induction false} BeforeFirstOfJoin(u: string, e: string, c: char)
    requires c !in u
    requires e == "" || e[0] == c
    ensures BeforeFirst(u + e, c) == u
  {
    var s := u + e;
    assert s[..|u|] == u;
    assert |u| < |s| ==> s[|u|] == c;
    // the first `c` of `s` can be neither inside `u` nor after position |u|
    assert IndexOf(s, c) == if |u| < |s| then Some(|u|) else None;
  }
}

=== FILE: upload_job.dfy ===
/**
 * The single upload job of Frontend/src/Pages/Upload.jsx: the selected
 * file, its preview handle, the in-flight flag, the status message and
 * the id of the downloadable result. `handleUpload` is split into the
 * request it issues and the transition applied when that request
 * resolves; nothing ties a resolution to the file it was sent for.
 */
module UploadJob {
  import opened Wrappers
  import opened Text
  import opened Http

  /** A browser `File`: its name and an opaque identity. */
  datatype FileRef = FileRef(name: string, handle: nat)

  datatype Job = Job(
    file: Option<FileRef>,
    preview: Option<nat>,
    uploading: bool,
    message: string,
    downloadId: Option<string>)

  /** The JSON of an upload reply; every field may be absent. */
  datatype UploadBody = UploadBody(status: Option<string>, filename: Option<string>, message: Option<string>)

  const DownloadBase: string := Origin + "/api/download/"

  /** The `useState` defaults: nothing selected, so neither the button nor the link is live. */
  function Initial(): (j: Job)
    ensures j.message == "Ready for Enhancement"
    ensures j.file.None? && j.preview.None? && !j.uploading && j.downloadId.None?
    ensures !EnhanceEnabled(j) && !LinkShown(j)
  {
    Job(None, None, false, "Ready for Enhancement", None)
  }

  /**
   * `handleImageChange`: a non-empty selection stores its first file,
   * replaces the preview with the freshly created object URL and clears
   * the download id; an empty selection changes nothing.
   */
  function SelectFiles(j: Job, files: seq<FileRef>, objectUrl: nat): (r: Job)
    ensures |files| == 0 ==> r == j
    ensures |files| > 0 ==>
      && r.file == Some(files[0])
      && r.preview == Some(objectUrl)
      && r.downloadId.None?
      && r.message == "File selected: " + files[0].name
      && r.uploading == j.uploading
  {
    if |files| == 0 then j
    else
      j.(file := Some(files[0]), preview := Some(objectUrl),
         message := "File selected: " + files[0].name, downloadId := None)
  }

  /** `disabled={isUploading || !fileToUpload}`, negated. */
  predicate EnhanceEnabled(j: Job)
  {
    !j.uploading && j.file.Some?
  }

  /** `{downloadId && ...}`: an empty id is falsy too. */
  predicate LinkShown(j: Job)
  {
    j.downloadId.Some? && j.downloadId.value != ""
  }

  /** `getDownloadURL`. */
  function DownloadUrl(id: string): (u: string)
    ensures IsPrefix(DownloadBase, u)
    ensures u[|DownloadBase|..] == id
  {
    var u := DownloadBase + id;
    PrefixOfConcat(DownloadBase, id);
    u
  }

  /** Two ids give the same link only if they are the same id. */
  lemma DownloadUrlInjective(a: string, b: string)
    ensures DownloadUrl(a) == DownloadUrl(b) ==> a == b
  {
  }

  /**
   * `handleUpload` up to the `fetch`. With no file it only sets a prompt
   * and sends nothing; otherwise it marks the job uploading, clears the
   * download id and sends the selected file.
   */
  function Submit(j: Job): (r: (Job, Option<FileRef>))
    ensures j.file.None? ==> r.1.None? && r.0 == j.(message := "Please select an image first.")
    ensures j.file.Some? ==>
      && r.1 == j.file
      && r.0 == j.(uploading := true, message := "Uploading and Processing...", downloadId := None)
  {
    if j.file.None? then (j.(message := "Please select an image first."), None)
    else (j.(uploading := true, message := "Uploading and Processing...", downloadId := None), j.file)
  }

  /** An ok reply whose body has a `status` string (otherwise `toUpperCase` throws). */
  predicate OkWithStatus(resp: Response<UploadBody>)
  {
    resp.Ok? && resp.body.status.Some?
  }

  /** An ok reply whose status is exactly "completed". */
  predicate OkCompleted(resp: Response<UploadBody>)
  {
    resp.Ok? && resp.body.status == Some("completed")
  }

  /**
   * The rest of `handleUpload`, once the request resolves. An ok reply
   * reports the status in upper case, records the filename as download id
   * when the status is exactly "completed", and clears the selection. An
   * error status reports the server message (or a fallback) and keeps the
   * selection; a transport or parse failure, which includes an ok reply
   * without a status, only sets the message. Every outcome ends the
   * upload.
   */
  function Resolve(j: Job, resp: Response<UploadBody>): (r: Job)
    ensures !r.uploading
    ensures r.preview == j.preview
    ensures OkWithStatus(resp) ==>
      r.message == "Success! Image enhancement is " + Upper(resp.body.status.value) + "."
    ensures OkWithStatus(resp) ==> r.file.None?
    ensures !OkWithStatus(resp) ==> r.file == j.file
    ensures OkCompleted(resp) ==> r.downloadId == resp.body.filename
    ensures OkWithStatus(resp) && !OkCompleted(resp) ==> r.downloadId == j.downloadId
    ensures resp.HttpError? ==>
      && r.downloadId.None?
      && r.message == "Upload Failed: " + OrElse(resp.body.message, "Server error occurred.")
    ensures resp.TransportOrParseFailure? || (resp.Ok? && resp.body.status.None?) ==>
      && r.downloadId == j.downloadId
      && r.message == "Network connection failed. Is the Flask server running?"
  {
    match resp
    case Ok(body) =>
      if body.status.None? then
        j.(uploading := false, message := "Network connection failed. Is the Flask server running?")
      else
        var shown := "Success! Image enhancement is " + Upper(body.status.value) + ".";
        var id := if body.status.value == "completed" then body.filename else j.downloadId;
        j.(uploading := false, message := shown, downloadId := id, file := None)
    case HttpError(_, body) =>
      j.(uploading := false, message := "Upload Failed: " + OrElse(body.message, "Server error occurred."),
         downloadId := None)
    case TransportOrParseFailure =>
      j.(uploading := false, message := "Network connection failed. Is the Flask server running?")
  }

  /**
   * Submitting and resolving: the download id is set exactly when the reply
   * was ok with status exactly "completed" and a filename, and then it is
   * that filename. A reply of "failed", "Completed" or an error leaves it
   * unset.
   */
  lemma DownloadIdIffCompleted(j: Job, resp: Response<UploadBody>)
    requires j.file.Some?
    ensures
      var r := Resolve(Submit(j).0, resp);
      && (r.downloadId.Some? <==> OkCompleted(resp) && resp.body.filename.Some?)
      && (r.downloadId.Some? ==> r.downloadId == resp.body.filename)
  {
  }

  /** An ok reply clears the selection; anything else keeps it for a retry. */
  lemma SelectionKeptForRetry(j: Job, resp: Response<UploadBody>)
    requires j.file.Some?
    ensures
      var (sent, req) := Submit(j);
      var r := Resolve(sent, resp);
      && req == j.file
      && sent.uploading && !EnhanceEnabled(sent)
      && !r.uploading
      && (OkWithStatus(resp) <==> r.file.None?)
      && (!OkWithStatus(resp) ==> EnhanceEnabled(r))
  {
  }

  /** Submitting with nothing selected sends nothing and touches only the message. */
  lemma SubmitWithoutFileIsLocal(j: Job)
    requires j.file.None?
    ensures
      var (r, req) := Submit(j);
      && req.None?
      && r.file == j.file && r.preview == j.preview && r.downloadId == j.downloadId
      && r.uploading == j.uploading
      && r.message == "Please select an image first."
  {
  }

  /** Selecting A and then B leaves B and B's preview, with no download id. */
  lemma SelectTwice(j: Job, a: FileRef, urlA: nat, b: FileRef, urlB: nat)
    ensures
      var r := SelectFiles(SelectFiles(j, [a], urlA), [b], urlB);
      r.file == Some(b) && r.preview == Some(urlB) && r.downloadId.None?
      && r == SelectFiles(j, [b], urlB)
  {
  }

  /**
   * There is no stale-response guard: a file chosen while an upload is in
   * flight is dropped when the earlier upload's ok reply arrives, although
   * its preview stays on screen.
   */
  lemma LateReplyDropsNewSelection(j: Job, b: FileRef, urlB: nat, body: UploadBody)
    requires j.file.Some?
    requires body.status.Some?
    ensures
      var during := SelectFiles(Submit(j).0, [b], urlB);
      var r := Resolve(during, Ok(body));
      && during.file == Some(b)
      && r.file.None?
      && r.preview == Some(urlB)
  {
  }

  /** The link shown after a completed upload points at the download route for that filename. */
  lemma CompletedLinkTarget(j: Job, name: string, message: Option<string>)
    requires j.file.Some? && name != ""
    ensures
      var r := Resolve(Submit(j).0, Ok(UploadBody(Some("completed"), Some(name), message)));
      && LinkShown(r)
      && DownloadUrl(r.downloadId.value) == DownloadBase + name
      && IsSuffix("/api/download/" + name, DownloadUrl(r.downloadId.value))
  {
    var u := DownloadBase + name;
    assert u == Origin + ("/api/download/" + name);
  }
}

=== FILE: wrappers.dfy ===
/** The optional value used wherever the source has `None`, `null` or `undefined`. */
module Wrappers {

  datatype Option<+T> = None | Some(value: T) {

    /** Returns the wrapped value, or `default` when there is none. */
    function GetOr(default: T): T
    {
      match this
      case Some(v) => v
      case None => default
    }
  }
}
